=== FILE: README.md ===
# feature-switch-core in Dafny

A model of the core of `feature-switch-core`, a small JavaScript library for
feature switches. The model covers:

- **The feature store** (`FeatureManager`). It holds a map from feature name to
  boolean, the change listeners in registration order, and the listener calls
  still waiting in the timer queue. The model covers:
  - the constructor, with its JSON clone and boolean normalisation;
  - the queries and the permission checks;
  - the mutations (`addFeature`, `removeFeature`, `setEnabled`, `enable`,
    `disable`, `toggle`), each of which notifies every listener asynchronously;
  - conditional execution (`ifEnabled`, `ifDisabled`, `decide`);
  - the four aggregate queries;
  - listener subscription and unsubscription.
- **The policy context** (`PolicyContext`). `createContext` resolves seven
  decision slots: `execute`, `isTrue`, `isEnabled`, `canSet`, `canAddFeatures`,
  `canRemoveFeatures` and `onListenerError`. Each slot takes the caller's
  override when that override is a function and the documented default
  otherwise.
- **The value helpers** (`Util`, built on `JsValues`): `isTrue`, `isFalse`,
  `isBoolean`, `isDefined`, `isObject`, `isObjectStrict` and the rest, over a
  JavaScript value datatype, plus the recursive option merge `mergeDeep`.
- **The build-time stripper** (`FeatureSwitchStrip`), in its pure parts:
  - the default options and how caller options merge over them;
  - the choice of disabled features;
  - the `${FEATURE}` template fill-in;
  - the per-dialect enable switches and the fixed pass order;
  - the star-comment pass's marker filter and splice.

JavaScript behaviour is modelled explicitly:

- truthiness and `typeof`;
- the string coercion `value + ''`, including arrays, which is how `['true']`
  counts as true;
- ASCII lower-casing;
- the `for…in` keys of objects and arrays;
- `JSON.parse(JSON.stringify(v))`. It drops `undefined` and function members
  and throws on a top-level `undefined` or function; that throw is `None`.
- a TypeError from reading a property of `null`/`undefined`, which is also `None`.

`setTimeout` becomes a FIFO queue of pending listener calls (`Store.pending`),
drained by `DeliverAll`. What a listener does when it runs is a parameter:
it may be no function, return, or throw.

Where the code and the library's own tests or expectations differ, the model
follows the code:

- Unsubscribing removes one registration per call. An unsubscribe callable is
  usually expected to be idempotent, but here that holds only for a listener
  registered at most once (`UnsubscribeTwiceOnce`). Registering the same
  listener twice and unsubscribing twice removes both registrations
  (`UnsubscribeTwiceTwice`).
- `decide` returns nothing, though test/feature-manager.spec.js:415-422
  expects it to return the enabled branch's result. It reads `isEnabled` once
  per branch. With a deterministic `isEnabled` and a first branch that leaves
  the feature's state alone, it runs exactly one branch for a known name.
  Otherwise it can run both branches or neither (see "## Left out").
- There are no `ifFunction`, `elseFunction` or `ifElseFunction` members,
  though test/feature-manager.spec.js:646-737 exercises them.
- The aggregate queries ask the context's `isEnabled` about every listed name,
  known or not (`AggregatesConsultUnknownNames`). `isEnabled` itself answers
  `false` for an unknown name.
- `isFeatures` accepts any non-array object, whatever its values
  (`IsFeaturesExamples`).

## Model

| member | source | states |
|---|---|---|
| JsValues.Lower | src/util.js:7 | lower-casing keeps the length and maps each character through the ASCII lower-case map |
| JsValues.NatToString | src/util.js:7 | the decimal form of a number is non-empty and all digits |
| Util.LowerIsTrueSpelling | src/util.js:7 | a string lower-cases to "true" exactly when it is "true" in some mix of cases |
| Util.LowerIsFalseSpelling | src/util.js:15 | a string lower-cases to "false" exactly when it is "false" in some mix of cases |
| Util.NumberIsNeitherWord | src/util.js:7-15 | no number's string form lower-cases to "true" or "false" |
| Util.IsTrueOnNonArrays | src/util.js:7 | off arrays, `isTrue` holds exactly for `true` and case-insensitive "true"; never for numbers, null, undefined, objects or functions |
| Util.IsFalseOnNonArrays | src/util.js:15 | off arrays, `isFalse` holds exactly for `false` and case-insensitive "false" |
| Util.TrueFalseExclusive | src/util.js:7-23 | no value is both true and false; `isBoolean` is their union, accepting 'TRUE'/'FALSE' and rejecting 123 and `{}` |
| Util.ArrayOfTrueIsTrue | src/util.js:7 | the string coercion makes `['true']` true and `['true','x']` not |
| Util.DefinedIffNotNullish | src/util.js:31-55 | `isDefined` rejects exactly `null` and `undefined` |
| Util.ObjectStrictIsPlainObject | src/util.js:71-79 | `isObject` holds for objects and arrays; `isObjectStrict` only for plain objects |
| Util.ForInEntries | src/util.js:106 | every value the key loop visits is a strict part of the looped value |
| Util.MergeInto | src/util.js:105-120 | merging one source: an object target stays an object; a non-object on either side leaves the target; the keys become the union; unmentioned keys keep their values; non-object source values overwrite |
| Util.MergeIntoNestedKey | src/util.js:107-113 | an object-valued source key becomes the recursive merge into the target's value, or into `{}` when that value is falsy |
| Util.MergeDeep | src/util.js:97-123 | with no sources the target is returned; an object target stays an object |
| Util.MergeDeepKeepsUnmentioned | src/util.js:97-123 | a key that no source mentions keeps the target's value |
| Util.MergeDeepRightmostScalarWins | src/util.js:89-123 | a scalar from source j is the result when no later source mentions the key: later sources take precedence |
| Util.NestedMergeKeepsUnmentioned | src/util.js:107-113 | a nested merge keeps the nested keys the source does not mention |
| Util.NestedMergeIntoFalsy | src/util.js:108-113 | a falsy or missing target value is replaced by a fresh object, which then holds exactly the source's nested keys |
| PolicyContext.Resolve | src/context.js:23 | a slot takes the caller's entry exactly when that entry is a function; an entry that is any other value (its type excludes functions) gives the default |
| PolicyContext.CreateContext | src/context.js:10-72 | an argument that `isObject` rejects (its type excludes objects and arrays) gives all seven defaults; otherwise each slot is overridden exactly when the caller's entry is a function |
| PolicyContext.CreateContextUsesFunctionOverrides | src/context.js:13-72 | each of the seven slots behaves as the caller's function when one is given, and as its default otherwise |
| PolicyContext.NonObjectContextIsDefault | src/context.js:13-72 | with no context object, `execute` applies the function, `isTrue` is `Util.isTrue`, every permission is granted and errors are not reported to a handler |
| PolicyContext.DefaultIsEnabledReadsLive | src/context.js:41 | the default `isEnabled` is the stored boolean of the live map, false when absent, whatever snapshot it is given |
| FeatureManager.AsObject | src/feature-manager.js:151-154 | a feature map seen as a JavaScript object has the same keys, each holding its boolean |
| FeatureManager.Clone | src/feature-manager.js:21-23 | the JSON clone throws exactly for a top-level `undefined` or function |
| FeatureManager.JsonCopyIsClean | src/feature-manager.js:21-23 | a JSON copy holds no `undefined` and no function at any depth |
| FeatureManager.JsonCopyKeepsClean | src/feature-manager.js:21-23 | a value with no `undefined` or function is its own JSON copy |
| FeatureManager.CloneIsIdempotent | src/feature-manager.js:21-23 | cloning a clone gives the same clone |
| FeatureManager.CloneOfFeatures | src/feature-manager.js:128 | the snapshot of a feature map equals the map |
| FeatureManager.CastAsFeatures | src/feature-manager.js:10-15 | a plain object keeps exactly its keys, each holding `isTrue` of the decider's answer (the caller's function, or `Util.isTrue`); anything else becomes the empty map |
| FeatureManager.AsFeatures | src/feature-manager.js:17-19 | the result passes `isFeaturesStrict`, has exactly the input's keys, each holding `isTrue` of its value, and a non-object gives `{}` |
| FeatureManager.StrictFeatures | src/feature-manager.js:6-8 | every stored feature map passes `isFeaturesStrict` |
| FeatureManager.ConstructorDecider | src/feature-manager.js:97 | the constructor uses the caller's `isTrue` exactly when the context is an object whose `isTrue` is a function |
| FeatureManager.Construct | src/feature-manager.js:92-99 | construction fails exactly when the clone throws; a new store has no listeners, no pending calls and a strict feature map |
| FeatureManager.GetFeatures | src/feature-manager.js:151-154 | `getFeatures` returns the features as an object with the same names and booleans |
| FeatureManager.Broadcast | src/feature-manager.js:40-59 | one scheduled call per listener, in registration order, all with the same snapshot, name and value |
| FeatureManager.SetAndFireEvent | src/feature-manager.js:69-76 | `undefined` deletes the name, any other value stores its `isTrue`; one call per listener is queued with the updated map; listeners are kept |
| FeatureManager.AddFeature | src/feature-manager.js:105-111 | when adding is refused nothing changes; otherwise the context-normalised value is set and broadcast |
| FeatureManager.RemoveFeature | src/feature-manager.js:117-121 | a known name is deleted and broadcast when removal is allowed; otherwise nothing changes |
| FeatureManager.SetEnabled | src/feature-manager.js:143-149 | a known name takes the context-normalised value when `canSet` allows that value; otherwise nothing changes |
| FeatureManager.IfEnabled | src/feature-manager.js:156-160 | the function runs through `context.execute` exactly when the feature is enabled, and its result is returned |
| FeatureManager.IfDisabled | src/feature-manager.js:162-166 | the function runs exactly when the feature is known and disabled |
| FeatureManager.Decide | src/feature-manager.js:168-171 | an unknown name runs no branch; a known one runs exactly the enabled or the disabled branch, by its state |
| FeatureManager.PluckValues | src/feature-manager.js:25-28 | one boolean per listed name; a value that is not an array (arrays are always name lists) gives none |
| FeatureManager.SomeAre | src/feature-manager.js:204-214 | `some` holds exactly when one element has the wanted value |
| FeatureManager.AllAre | src/feature-manager.js:208-217 | `every` holds exactly when all elements have the wanted value |
| FeatureManager.RunCallback | src/feature-manager.js:45-57 | a non-function listener is skipped; otherwise the listener is called first with (snapshot, name, value) |
| FeatureManager.Deliver | src/feature-manager.js:43-58 | the timer queue runs its oldest call first and drops it from the queue |
| FeatureManager.AddChangeListener | src/feature-manager.js:224-225 | the listener is appended and nothing else changes |
| FeatureManager.IndexOf | src/feature-manager.js:228 | `findIndex` gives the first position holding the listener |
| FeatureManager.RemoveFirst | src/feature-manager.js:226-232 | unsubscribing an unregistered listener changes nothing; otherwise its first registration is cut out, and exactly one copy leaves the multiset |
| FeatureManager.FindIndex | src/feature-manager.js:228-229 | the loop returns -1 exactly when the listener is absent, else its first position |
| FeatureManager.Unsubscribe | src/feature-manager.js:226-232 | the unsubscribe callable removes the first registration and leaves the features and the queue alone |
| FeatureManager.RemoveFirstAt | src/feature-manager.js:228-230 | removal at the position `findIndex` found is the first-registration removal |
| FeatureManagerProperties.SetAndFireEventSpec | src/feature-manager.js:69-76 | only `name` changes in the map; every listener is notified once, in order, after the pending calls already queued |
| FeatureManagerProperties.ConstructNormalises | src/feature-manager.js:10-15 | the constructor keeps exactly the JSON-serialisable keys, each stored as `isTrue` of the context's `isTrue` of its cloned value; a non-object gives `{}` |
| FeatureManagerProperties.DeciderMatchesContext | src/feature-manager.js:97-98 | the constructor normalises with the same `isTrue` the created context uses |
| FeatureManagerProperties.ConstructExample | src/feature-manager.js:92-99 | `{a:'true', b:'false', c:1, d:undefined}` becomes `{a:true, b:false, c:false}` |
| FeatureManagerProperties.IsFeaturesExamples | src/feature-manager.js:6-8 | `{a:'x'}` is a features object but not a strict one; arrays, null and strings are neither |
| FeatureManagerProperties.UnknownName | src/feature-manager.js:117-149 | for an unknown name: not enabled but disabled, no permission, neither branch runs, set and remove change nothing |
| FeatureManagerProperties.AddFeatureSpec | src/feature-manager.js:105-111 | an allowed add stores the normalised value, changes no other name and notifies every listener |
| FeatureManagerProperties.RemoveFeatureSpec | src/feature-manager.js:117-121 | an allowed remove makes the name unknown, changes no other name and notifies with `undefined` |
| FeatureManagerProperties.SetEnabledSpec | src/feature-manager.js:143-149 | a refused set leaves the store as it was; an allowed one changes exactly `name` and notifies every listener |
| FeatureManagerProperties.EnableSpec | src/feature-manager.js:181-185 | `enable` sets the normalised `true` when both permission checks pass and otherwise changes nothing |
| FeatureManagerProperties.DisableSpec | src/feature-manager.js:187-191 | `disable` sets the normalised `false` when both permission checks pass and otherwise changes nothing |
| FeatureManagerProperties.ToggleSpec | src/feature-manager.js:193-202 | `toggle` asks for the opposite of the current state; an unknown or refused name is unchanged |
| FeatureManagerProperties.DefaultIsEnabled | src/feature-manager.js:127-129 | with the default `isEnabled`, a feature is enabled exactly when it is known and stored true |
| FeatureManagerProperties.SetThenIsEnabled | src/feature-manager.js:143-149 | under the default policy, `isEnabled` after `setEnabled(name, v)` is `isTrue(v)` |
| FeatureManagerProperties.ToggleFlips | src/feature-manager.js:198-202 | under the default policy, `toggle` flips the stored value and notifies every listener |
| FeatureManagerProperties.ToggleTwiceRestores | src/feature-manager.js:198-202 | toggling twice restores the map and queues two notifications per listener |
| FeatureManagerProperties.AddThenRemove | src/feature-manager.js:105-121 | adding an unknown name and removing it again restores the map |
| FeatureManagerProperties.AggregatesDeMorgan | src/feature-manager.js:204-217 | any-disabled is not all-enabled, and all-disabled is not any-enabled |
| FeatureManagerProperties.AggregatesOnNoNames | src/feature-manager.js:25-28 | with no names (an empty array, or a value that is not an array) nothing is any-enabled or any-disabled, and everything is all-enabled and all-disabled |
| FeatureManagerProperties.AggregatesMatchIsEnabled | src/feature-manager.js:204-210 | with the default `isEnabled`, all-enabled and any-enabled agree with `isEnabled` on each name |
| FeatureManagerProperties.AggregatesExample | src/feature-manager.js:204-217 | for `{a:true, b:false}` and names `[a,b]`: any-enabled and any-disabled hold; all-enabled and all-disabled do not |
| FeatureManagerProperties.AggregatesConsultUnknownNames | src/feature-manager.js:25-28 | a custom `isEnabled` is asked about unknown names too, though `isEnabled` of the store says false |
| FeatureManagerProperties.RunCallbackRecords | src/feature-manager.js:45-57 | a callback records a call exactly when the listener is a function, and an error report exactly when it throws with a handler installed |
| FeatureManagerProperties.DeliverAllCallsEveryListener | src/feature-manager.js:43-58 | draining the queue calls every queued function listener, in queue order, with its own event |
| FeatureManagerProperties.DeliverAllReportsEveryError | src/feature-manager.js:50-55 | every throw reaches `onListenerError` with its error and event, in order, and one listener's throw does not stop the others |
| FeatureManagerProperties.ThrowingListenerExample | src/feature-manager.js:40-59 | when the first of two listeners throws, the error is reported and the second listener still runs |
| FeatureManagerProperties.SubscribeThenUnsubscribe | src/feature-manager.js:224-232 | subscribing a new listener and unsubscribing it restores the listener list |
| FeatureManagerProperties.UnsubscribeRemovesOne | src/feature-manager.js:226-232 | unsubscribing shortens the list by one when registered and leaves every other listener's count alone |
| FeatureManagerProperties.UnsubscribeTwiceOnce | src/feature-manager.js:226-232 | for a listener registered at most once, unsubscribing twice is unsubscribing once |
| FeatureManagerProperties.UnsubscribeTwiceTwice | src/feature-manager.js:224-232 | a listener registered twice loses one registration per unsubscribe call |
| FeatureSwitchStrip.NoTokenUnchanged | src/feature-switch-strip.js:53 | a template without `${FEATURE}` is returned unchanged |
| FeatureSwitchStrip.TokenForTokenUnchanged | src/feature-switch-strip.js:53 | filling the placeholder with itself changes nothing |
| FeatureSwitchStrip.DollarFreePrefix | src/feature-switch-strip.js:53 | a prefix without `$` passes through the fill-in untouched |
| FeatureSwitchStrip.TokenFirst | src/feature-switch-strip.js:53 | a leading placeholder becomes the feature name, and the fill-in continues after it |
| FeatureSwitchStrip.SinglePlaceholder | src/feature-switch-strip.js:53 | one placeholder between `$`-free text becomes the feature name |
| FeatureSwitchStrip.ManyPlaceholders | src/feature-switch-strip.js:53 | every placeholder is replaced: `$`-free parts joined by placeholders become the same parts joined by the feature name |
| FeatureSwitchStrip.DefaultTemplateFilled | src/feature-switch-strip.js:4-32 | each default template filled in is its fixed text around the feature name |
| FeatureSwitchStrip.DisabledFeatures | src/feature-switch-strip.js:326 | the disabled list holds exactly the names whose values are falsy |
| FeatureSwitchStrip.DisabledFeaturesAppend | src/feature-switch-strip.js:326 | the selection keeps key order: selecting from two parts is joining their selections |
| FeatureSwitchStrip.EnabledFeatureIgnored | src/feature-switch-strip.js:326 | a truthy feature is never stripped |
| FeatureSwitchStrip.Substring | src/feature-switch-strip.js:250 | `substring` takes the slice between its arguments in either order |
| FeatureSwitchStrip.AssembleStar | src/feature-switch-strip.js:247-259 | the assembly loop gives the kept parts joined by the replacement string |
| FeatureSwitchStrip.Gaps | src/feature-switch-strip.js:247-256 | n matches leave n+1 kept parts |
| FeatureSwitchStrip.SpliceIsJoinedGaps | src/feature-switch-strip.js:247-259 | for ordered matches, the assembled result is the text outside the matches joined by the replacement |
| FeatureSwitchStrip.SpliceWithoutSpans | src/feature-switch-strip.js:247-259 | with no matches the content comes back whole |
| FeatureSwitchStrip.SpliceOfReplacementsUnchanged | src/feature-switch-strip.js:247-259 | replacing matches with text equal to what they cover gives back the content |
| FeatureSwitchStrip.SpliceLength | src/feature-switch-strip.js:247-259 | the result's length is the content's, less the matched text, plus one replacement per match |
| FeatureSwitchStrip.SelectSpans | src/feature-switch-strip.js:217-241 | the star pass keeps exactly the matches that contain both markers for the feature |
| FeatureSwitchStrip.SelectKeepsOrder | src/feature-switch-strip.js:230-241 | the marker filter keeps the matches in ascending, non-overlapping order |
| FeatureSwitchStrip.StarPassWithoutMarkers | src/feature-switch-strip.js:198-260 | when no match carries both markers, the star pass returns the content unchanged |
| FeatureSwitchStrip.StarPassKeepsOutside | src/feature-switch-strip.js:198-260 | the star pass replaces each marked match and keeps all text outside them |
| FeatureSwitchStrip.MergedOptions | src/feature-switch-strip.js:323 | the merged options are always an object |
| FeatureSwitchStrip.Prop | src/feature-switch-strip.js:330-347 | reading a property of `null`/`undefined` is an error; of an object, the value or `undefined` |
| FeatureSwitchStrip.Template | src/feature-switch-strip.js:331-347 | a dialect's template is usable exactly when its `replace` is a string; every other value, including an object with a callable `replace` member, is treated as an error |
| FeatureSwitchStrip.RunPass | src/feature-switch-strip.js:330-348 | a falsy `enabled` skips the pass; null or missing dialect options are a TypeError; a pass that runs uses the filled-in template |
| FeatureSwitchStrip.StripAllAppend | src/feature-switch-strip.js:329-349 | stripping a list of features is stripping its first part, then the rest on that result |
| FeatureSwitchStrip.PassesOff | src/feature-switch-strip.js:330-348 | when every dialect is switched off, a feature's passes leave the content as it is |
| FeatureSwitchStrip.AllDialectsOff | src/feature-switch-strip.js:329-351 | with every dialect off, stripping any features returns the content |
| FeatureSwitchStrip.EnabledFeaturesNeverStrip | src/feature-switch-strip.js:320-352 | with no disabled feature the content is returned unchanged |
| FeatureSwitchStrip.MergeIntoEmptyCopies | src/feature-switch-strip.js:323 | merging a tree of plain objects into `{}` copies it |
| FeatureSwitchStrip.MergedOverDefaults | src/feature-switch-strip.js:323 | the options are the caller's merged over a copy of the defaults |
| FeatureSwitchStrip.DefaultsArePlain | src/feature-switch-strip.js:4-32 | the default options are a tree of plain objects |
| FeatureSwitchStrip.NoOptionsMeansDefaults | src/feature-switch-strip.js:323 | without an options object the merged options equal the defaults |
| FeatureSwitchStrip.DefaultsEntry | src/feature-switch-strip.js:4-32 | the defaults hold one entry per dialect, enabled, with its own template |
| FeatureSwitchStrip.MergedEnabled | src/feature-switch-strip.js:323-330 | a caller's scalar `enabled` for a dialect survives the merge over the defaults |
| FeatureSwitchStrip.AllOffOptionsKeepContent | src/feature-switch-strip.js:320-352 | for any options whose five dialect entries are objects with a falsy scalar `enabled`, `strip` returns the content unchanged, whatever the features |
| FeatureSwitchStrip.AllOffOptionsSwitchOff | src/feature-switch-strip.js:323-346 | `{<each dialect>: {enabled: false}}` switches every dialect off |
| FeatureSwitchStrip.DefaultPass | src/feature-switch-strip.js:4-32 | under the defaults each dialect runs with its own filled-in template |
| FeatureSwitchStrip.DefaultPasses | src/feature-switch-strip.js:329-349 | under the defaults the passes run in order, each on the previous output |
| FeatureSwitchStrip.DefaultsRunEveryPass | src/feature-switch-strip.js:320-352 | without options each disabled feature goes through all five passes in the fixed order with the default templates |

## Left out

- Numbers are integers only. `NaN`, `Infinity`, fractions and the exponent forms of the string coercion are left out.
- `toString`/`valueOf` overrides on objects are left out. Every plain object coerces to "[object Object]".
- FeatureSwitchStrip.Template: a non-string `replace` whose own `replace` member is a function would be called by `generateReplacementString` (src/feature-switch-strip.js:53), and its result used. The model treats every non-string template as a TypeError (`None`).
- Lower-casing covers ASCII letters only. Unicode case mapping is left out.
- Prototype and inherited properties are left out. A `for…in` loop and a property read see own keys only.
- Object aliasing is left out. The store, its snapshots and the caller's objects are values, so a later change to the caller's input object cannot reach the store.
- Util.MergeInto: an array target is left unchanged. JavaScript would write named properties onto the array.
- The `canAddFeatures()` and `canRemoveFeatures()` methods of the store are left as the context's `CanAddFeatures`/`CanRemoveFeatures`, which they forward to unchanged.
- Permission overrides (`canSet`, `canAddFeatures`, `canRemoveFeatures`) return a boolean in the model. A truthy non-boolean result is not modelled.
- A throw from a context override, or from `onListenerError` itself, is left out.
- The side effects of `execute`, of listeners and of `onListenerError` are left out. A call is recorded as an effect; a listener's outcome is a parameter.
- The default `onListenerError` and the console warning of `fireEvent` only write to the console, so they are recorded as nothing.
- Event-loop timing is left out. Timers run in FIFO order, which is what `setTimeout` with no delay gives.
- Feature names are JavaScript property names. An `undefined` feature name and non-string keys are left out.
- `asFeatures` returns the normalised map as a new value. The in-place rewrite of its argument is not modelled, because objects are values here.
- FeatureManager.Enable, FeatureManager.Disable and FeatureManager.Toggle carry their contracts in `EnableSpec`, `DisableSpec`, `ToggleSpec` and `ToggleFlips`.
- FeatureManager.Decide: reads the store and `isEnabled` once for both branches. The code calls `ifEnabled` and then `ifDisabled`, and each reads `isEnabled` again. So both branches or neither can run: both when the enabled branch disables the feature, or when a custom `isEnabled` answers true and then false; neither when it answers false and then true. Side effects of `execute` on the store and non-deterministic overrides are not modelled, so the model cannot show this.
- Context overrides (`isTrue`, `isEnabled`, `canSet`, `canAddFeatures`, `canRemoveFeatures`, `execute`) and listener outcomes are deterministic: Dafny function values give the same answer for the same arguments. The code reads some of them more than once in one operation, and an override that changes its answer between reads (a random rollout, say) is not modelled:
  - `toggle` reads `isEnabled` in `canToggle` and again to pick `enable` or `disable`;
  - `enable` and `disable` ask `canSet` through `canEnable`/`canDisable` and again inside `setEnabled`;
  - `decide` reads `isEnabled` in `ifEnabled` and again in `ifDisabled`.
  `ToggleSpec`, `ToggleFlips`, `EnableSpec` and `DisableSpec` rely on the repeated reads agreeing. A listener's outcome is a function of its event, so a listener that throws only on its first call, with two identical events queued, is not modelled.
- `execute` takes a function and an argument list, as the context's documentation describes. The default's TypeError for a non-callable `fn` or a non-array-like `args`, and a custom `execute` receiving such values, are left out.
- FeatureManager.PluckValues: the contract states the length only. The values are stated through `AggregatesMatchIsEnabled` under the default `isEnabled`.
- The four regular-expression passes (HTML comments, HTML elements, HTML attributes, slash comments) and the star pass's comment-pair search are parameters (`Engine`). Regular-expression matching, the escaping of feature names inside patterns, and `$` patterns in replacement strings are not modelled.
- The star pass's zero-width-match guard (`lastIndex++`) belongs to the search and is left out with it.
- The `features` argument of `strip` is given as its entries in key order. Other `features` values are left out. `null` and `undefined` make `Object.keys` throw, numbers and booleans yield no keys, and a string yields its index keys ("0", "1", …).
- The `content` argument of `strip` is a string. A non-string `content`, which makes the `replace` calls throw, is left out.
- Function-valued contexts with properties are left out. A context is an object or not.
- `src/feature-switch-dom.js`, the DOM integration, is not part of this model.

=== FILE: context.dfy ===
/** The policy context of src/context.js: seven decision slots, each either
    the caller's override or a documented default. */
module PolicyContext {
  import opened JsValues
  import Util

  /** A feature set: feature name to strictly boolean state. */
  type Features = map<string, bool>

  /** A change listener, known by its identity (`===`). */
  type ListenerId = nat

  /** A caller function that `execute` may run: positional arguments in, a value out. */
  type JsFunction = seq<Value> -> Value

  type ExecuteFn = (JsFunction, seq<Value>) -> Value
  type TruthFn = Value -> Value
  type EnabledFn = (string, Features) -> Value
  type CanSetFn = (string, Value) -> bool
  type PermissionFn = () -> bool
  /** (error, listener, name, value, snapshot); its result is ignored. */
  type ErrorFn = (Value, ListenerId, string, Value, Features) -> Value

  /** A JavaScript value that is not a function. */
  type NonFunction = v: Value | !Util.IsFunction(v) witness Undefined

  /** A JavaScript value that `Util.isObject` rejects: a primitive,
      `null`, `undefined` or a function. */
  type NonObject = v: Value | !Util.IsObject(v) witness Undefined

  /** One entry of the caller's override record: a function, or any value
      that is not a function. */
  datatype Entry<F> = FunctionEntry(f: F) | OtherEntry(v: NonFunction)

  /** The second argument of `createContext`: a non-object (including a
      missing argument), or an object with its seven entries. */
  datatype RawContext =
    | NotAnObject(v: NonObject)
    | ContextObject(
        execute: Entry<ExecuteFn>,
        isTrue: Entry<TruthFn>,
        isEnabled: Entry<EnabledFn>,
        canSet: Entry<CanSetFn>,
        canAddFeatures: Entry<PermissionFn>,
        canRemoveFeatures: Entry<PermissionFn>,
        onListenerError: Entry<ErrorFn>)

  /** A resolved slot: the documented default or the caller's function. */
  datatype Slot<F> = Default | Override(f: F)

  /** The context a store consults: all seven slots, always present. */
  datatype Context = Context(
    execute: Slot<ExecuteFn>,
    isTrue: Slot<TruthFn>,
    isEnabled: Slot<EnabledFn>,
    canSet: Slot<CanSetFn>,
    canAddFeatures: Slot<PermissionFn>,
    canRemoveFeatures: Slot<PermissionFn>,
    onListenerError: Slot<ErrorFn>)

  /** A slot takes the caller's entry exactly when that entry is a function. */
  function Resolve<F>(e: Entry<F>): (r: Slot<F>)
    ensures r.Override? <==> e.FunctionEntry?
    ensures r.Override? ==> r.f == e.f
  {
    match e
    case FunctionEntry(f) => Override(f)
    case OtherEntry(_) => Default
  }

  /** The context built from no overrides at all: `createContext(features)`. */
  const DefaultContext: Context :=
    Context(Default, Default, Default, Default, Default, Default, Default)

  /** `createContext(features, context)`. The captured feature map is not a
      field here: the default `isEnabled` reads the store's live map, which
      `IsEnabled` receives as its `live` argument. */
  function CreateContext(raw: RawContext): (c: Context)
    ensures raw.NotAnObject? ==>
              c.execute.Default? && c.isTrue.Default? && c.isEnabled.Default? &&
              c.canSet.Default? && c.canAddFeatures.Default? &&
              c.canRemoveFeatures.Default? && c.onListenerError.Default?
    ensures raw.ContextObject? ==>
              (c.execute.Override? <==> raw.execute.FunctionEntry?) &&
              (c.isTrue.Override? <==> raw.isTrue.FunctionEntry?) &&
              (c.isEnabled.Override? <==> raw.isEnabled.FunctionEntry?) &&
              (c.canSet.Override? <==> raw.canSet.FunctionEntry?) &&
              (c.canAddFeatures.Override? <==> raw.canAddFeatures.FunctionEntry?) &&
              (c.canRemoveFeatures.Override? <==> raw.canRemoveFeatures.FunctionEntry?) &&
              (c.onListenerError.Override? <==> raw.onListenerError.FunctionEntry?)
  {
    match raw
    case NotAnObject(_) => DefaultContext
    case ContextObject(ex, it, ie, cs, ca, cr, oe) =>
      Context(Resolve(ex), Resolve(it), Resolve(ie), Resolve(cs), Resolve(ca), Resolve(cr), Resolve(oe))
  }

  // ---------------------------------------------------------------------
  // Applying the slots
  // ---------------------------------------------------------------------

  /** `context.execute(fn, args)`; the default applies `fn` to `args` as
      positional arguments. */
  function Execute(c: Context, fn: JsFunction, args: seq<Value>): Value {
    match c.execute
    case Override(f) => f(fn, args)
    case Default => fn(args)
  }

  /** A truthiness slot applied to a value; the default is `Util.isTrue`. */
  function ApplyIsTrue(s: Slot<TruthFn>, v: Value): Value {
    match s
    case Override(f) => f(v)
    case Default => Bool(Util.IsTrue(v))
  }

  function IsTrue(c: Context, v: Value): Value {
    ApplyIsTrue(c.isTrue, v)
  }

  /** The value stored for `name` as JavaScript reads it: `undefined` when absent. */
  function Lookup(f: Features, name: string): Value {
    if name in f then Bool(f[name]) else Undefined
  }

  /** `context.isEnabled(name, snapshot)`. The default ignores the snapshot
      and reads the store's live map `live`. */
  function IsEnabled(c: Context, name: string, live: Features, snapshot: Features): Value {
    match c.isEnabled
    case Override(f) => f(name, snapshot)
    case Default => Bool(Util.IsTrue(Lookup(live, name)))
  }

  function CanSet(c: Context, name: string, proposed: Value): bool {
    match c.canSet
    case Override(f) => f(name, proposed)
    case Default => true
  }

  function CanAddFeatures(c: Context): bool {
    match c.canAddFeatures
    case Override(f) => f()
    case Default => true
  }

  function CanRemoveFeatures(c: Context): bool {
    match c.canRemoveFeatures
    case Override(f) => f()
    case Default => true
  }

  /** True when listener errors reach a caller handler; the default handler
      only writes a console warning, which is not modelled. */
  predicate ReportsListenerErrors(c: Context) {
    c.onListenerError.Override?
  }

  // ---------------------------------------------------------------------
  // Properties
  // ---------------------------------------------------------------------

  /** Every slot of the created context behaves as the caller's override
      when that override is a function, and as the default otherwise. */
  lemma CreateContextUsesFunctionOverrides(raw: RawContext)
    requires raw.ContextObject?
    ensures var c := CreateContext(raw);
      && (forall fn, args :: Execute(c, fn, args) ==
            (if raw.execute.FunctionEntry? then raw.execute.f(fn, args) else fn(args)))
      && (forall v :: IsTrue(c, v) ==
            (if raw.isTrue.FunctionEntry? then raw.isTrue.f(v) else Bool(Util.IsTrue(v))))
      && (forall name, live, snap :: IsEnabled(c, name, live, snap) ==
            (if raw.isEnabled.FunctionEntry? then raw.isEnabled.f(name, snap)
             else Bool(name in live && live[name])))
      && (forall name, v :: CanSet(c, name, v) ==
            (raw.canSet.FunctionEntry? ==> raw.canSet.f(name, v)))
      && (CanAddFeatures(c) == (raw.canAddFeatures.FunctionEntry? ==> raw.canAddFeatures.f()))
      && (CanRemoveFeatures(c) == (raw.canRemoveFeatures.FunctionEntry? ==> raw.canRemoveFeatures.f()))
      && (ReportsListenerErrors(c) <==> raw.onListenerError.FunctionEntry?)
  {
    var c := CreateContext(raw);
    forall name, live, snap
      ensures IsEnabled(c, name, live, snap) ==
                (if raw.isEnabled.FunctionEntry? then raw.isEnabled.f(name, snap)
                 else Bool(name in live && live[name]))
    {
      if raw.isEnabled.OtherEntry? {
        DefaultIsEnabledReadsLive(c, name, live, snap);
      }
    }
  }

  /** A non-object context argument (or none) gives every default: the
      permission slots allow everything, `isTrue` is `Util.isTrue`, and
      `execute` applies the function to its arguments. */
  lemma NonObjectContextIsDefault(v: NonObject)
    ensures var c := CreateContext(NotAnObject(v));
      && (forall fn, args :: Execute(c, fn, args) == fn(args))
      && (forall x :: IsTrue(c, x) == Bool(Util.IsTrue(x)))
      && (forall name, p :: CanSet(c, name, p))
      && CanAddFeatures(c) && CanRemoveFeatures(c)
      && !ReportsListenerErrors(c)
  {
  }

  /** The default `isEnabled` is the stored boolean of the live map (false
      for a missing name) and ignores the snapshot argument. */
  lemma DefaultIsEnabledReadsLive(c: Context, name: string, live: Features, snapshot: Features)
    requires c.isEnabled.Default?
    ensures IsEnabled(c, name, live, snapshot) == Bool(name in live && live[name])
  {
    if name in live {
      Util.IsTrueOnNonArrays(Bool(live[name]));
    } else {
      Util.IsTrueOnNonArrays(Undefined);
    }
  }
}

=== FILE: feature_manager.dfy ===
/** The feature store of src/feature-manager.js as a pure state-transition
    model. A store holds the feature map, the registered listeners in
    registration order, and the queue of change notifications that
    `setTimeout` has scheduled but not yet run. Every query and mutation
    consults a `PolicyContext.Context`, which is passed alongside the store
    because it never changes after construction. */
module FeatureManager {
  import opened Wrappers
  import opened JsValues
  import Util
  import opened PolicyContext

  // ---------------------------------------------------------------------
  // Feature objects and the JSON clone
  // ---------------------------------------------------------------------

  /** `isFeatures`: a truthy non-array whose `typeof` is "object". */
  predicate IsFeatures(v: Value) {
    Truthy(v) && !Util.IsArray(v) && TypeOf(v) == "object"
  }

  /** `isFeaturesStrict`: a features object all of whose values pass `isBoolean`. */
  predicate IsFeaturesStrict(v: Value) {
    IsFeatures(v) && v.Obj? && forall k | k in v.fields :: Util.IsBoolean(v.fields[k])
  }

  /** The JavaScript object that holds a feature map. */
  function AsObject(f: Features): (v: Value)
    ensures v.Obj? && v.fields.Keys == f.Keys
    ensures forall k | k in f :: v.fields[k] == Bool(f[k])
  {
    Obj(map k | k in f :: Bool(f[k]))
  }

  /** Values `JSON.stringify` cannot write: dropped from objects, written as
      `null` in arrays, and a thrown error at the top level. */
  predicate Unserialisable(v: Value) {
    v.Undefined? || v.Func?
  }

  /** A nested value after `JSON.parse(JSON.stringify(...))`. */
  function JsonCopy(v: Value): Value {
    match v
    case Arr(items) =>
      Arr(seq(|items|, i requires 0 <= i < |items| =>
                if Unserialisable(items[i]) then Null else JsonCopy(items[i])))
    case Obj(f) => Obj(map k | k in f && !Unserialisable(f[k]) :: JsonCopy(f[k]))
    case _ => v
  }

  /** `clone(source)`; `None` when it throws (top-level `undefined` or function). */
  function Clone(v: Value): (r: Option<Value>)
    ensures r.None? <==> Unserialisable(v)
  {
    if Unserialisable(v) then None else Some(JsonCopy(v))
  }

  /** A value JSON can carry unchanged: no `undefined` and no function anywhere. */
  predicate JsonClean(v: Value) {
    match v
    case Undefined => false
    case Func(_) => false
    case Arr(items) => forall i | 0 <= i < |items| :: JsonClean(items[i])
    case Obj(f) => forall k | k in f :: JsonClean(f[k])
    case _ => true
  }

  lemma {:induction false} JsonCopyIsClean(v: Value)
    requires !Unserialisable(v)
    ensures JsonClean(JsonCopy(v))
  {
    match v
    case Arr(items) =>
      forall i | 0 <= i < |items| && !Unserialisable(items[i])
        ensures JsonClean(JsonCopy(items[i]))
      {
        JsonCopyIsClean(items[i]);
      }
    case Obj(f) =>
      forall k | k in f && !Unserialisable(f[k])
        ensures JsonClean(JsonCopy(f[k]))
      {
        JsonCopyIsClean(f[k]);
      }
    case _ =>
  }

  lemma {:induction false} JsonCopyKeepsClean(v: Value)
    requires JsonClean(v)
    ensures JsonCopy(v) == v
  {
    match v
    case Arr(items) =>
      var r := JsonCopy(v);
      forall i | 0 <= i < |items|
        ensures r.items[i] == items[i]
      {
        JsonCopyKeepsClean(items[i]);
      }
    case Obj(f) =>
      var r := JsonCopy(v);
      forall k | k in f
        ensures JsonCopy(f[k]) == f[k]
      {
        JsonCopyKeepsClean(f[k]);
      }
      assert r.fields == f;
    case _ =>
  }

  /** Cloning a clone changes nothing more: the JSON round trip is idempotent. */
  lemma CloneIsIdempotent(v: Value)
    requires Clone(v).Some?
    ensures Clone(Clone(v).value) == Clone(v)
  {
    JsonCopyIsClean(v);
    JsonCopyKeepsClean(JsonCopy(v));
  }

  /** A feature map survives the JSON round trip exactly, so every snapshot
      a store hands out equals its map at that moment. */
  lemma CloneOfFeatures(f: Features)
    ensures Clone(AsObject(f)) == Some(AsObject(f))
  {
    JsonCopyKeepsClean(AsObject(f));
  }

  // ---------------------------------------------------------------------
  // Normalisation and construction
  // ---------------------------------------------------------------------

  /** `castAsFeatures(features, decider)`: a plain object keeps its keys and
      each value becomes `Util.isTrue(decider(value))`; anything else gives
      an empty set. */
  function CastAsFeatures(v: Value, decider: Slot<TruthFn>): (f: Features)
    ensures Util.IsObjectStrict(v) ==> f.Keys == v.fields.Keys
    ensures Util.IsObjectStrict(v) ==>
              forall k | k in v.fields :: f[k] == Util.IsTrue(ApplyIsTrue(decider, v.fields[k]))
    ensures !Util.IsObjectStrict(v) ==> f == map[]
  {
    if Util.IsObjectStrict(v) then
      map k | k in v.fields :: Util.IsTrue(ApplyIsTrue(decider, v.fields[k]))
    else
      map[]
  }

  /** `asFeatures(features)`: normalisation with `Util.isTrue`. */
  function AsFeatures(v: Value): (f: Features)
    ensures IsFeaturesStrict(AsObject(f))
    ensures v.Obj? ==> f.Keys == v.fields.Keys
    ensures v.Obj? ==> forall k | k in v.fields :: f[k] == Util.IsTrue(v.fields[k])
    ensures !v.Obj? ==> f == map[]
  {
    var f := CastAsFeatures(v, Default);
    StrictFeatures(f);
    assert v.Obj? ==> forall k | k in v.fields :: f[k] == Util.IsTrue(v.fields[k]) by {
      if v.Obj? {
        forall k | k in v.fields ensures f[k] == Util.IsTrue(v.fields[k]) {
          Util.IsTrueOnNonArrays(Bool(Util.IsTrue(v.fields[k])));
        }
      }
    }
    f
  }

  /** Every feature map, seen as an object, satisfies `isFeaturesStrict`. */
  lemma StrictFeatures(f: Features)
    ensures IsFeaturesStrict(AsObject(f))
  {
    var v := AsObject(f);
    forall k | k in v.fields ensures Util.IsBoolean(v.fields[k]) {
      Util.IsTrueOnNonArrays(v.fields[k]);
      Util.IsFalseOnNonArrays(v.fields[k]);
    }
  }

  /** `context && context.isTrue`, the decider the constructor passes to
      `castAsFeatures` before the context is built. */
  function ConstructorDecider(raw: RawContext): (s: Slot<TruthFn>)
    ensures s.Override? <==> raw.ContextObject? && raw.isTrue.FunctionEntry?
  {
    match raw
    case NotAnObject(_) => Default
    case ContextObject(_, it, _, _, _, _, _) => Resolve(it)
  }

  /** A pending change notification: one scheduled listener call. */
  datatype Event = Event(listener: ListenerId, snapshot: Features, name: string, value: Value)

  /** The state of one `FeatureManager`. */
  datatype Store = Store(features: Features, listeners: seq<ListenerId>, pending: seq<Event>)

  /** `new FeatureManager(features, context)`; `None` when the JSON clone
      of the input throws. */
  function Construct(input: Value, raw: RawContext): (r: Option<(Context, Store)>)
    ensures r.None? <==> Unserialisable(input)
    ensures r.Some? ==> r.value.1.listeners == [] && r.value.1.pending == []
    ensures r.Some? ==> IsFeaturesStrict(AsObject(r.value.1.features))
  {
    match Clone(input)
    case None => None
    case Some(copy) =>
      var f := CastAsFeatures(copy, ConstructorDecider(raw));
      StrictFeatures(f);
      Some((CreateContext(raw), Store(f, [], [])))
  }

  // ---------------------------------------------------------------------
  // Queries
  // ---------------------------------------------------------------------

  /** `hasFeature`: the stored value is defined, i.e. the name is a key. */
  predicate HasFeature(s: Store, name: string) {
    Util.IsDefined(Lookup(s.features, name))
  }

  /** `isEnabled`: `false` for an unknown name, otherwise the context's
      answer on a snapshot of the map (returned as the context gave it). */
  function IsEnabled(c: Context, s: Store, name: string): Value {
    if HasFeature(s, name) then PolicyContext.IsEnabled(c, name, s.features, s.features)
    else Bool(false)
  }

  predicate IsDisabled(c: Context, s: Store, name: string) {
    !Truthy(IsEnabled(c, s, name))
  }

  /** `getFeatures`: a JSON copy of the map. */
  function GetFeatures(s: Store): (r: Value)
    ensures r == AsObject(s.features)
  {
    CloneOfFeatures(s.features);
    JsonCopy(AsObject(s.features))
  }

  /** `canSetFeature`: false for an unknown name; otherwise the context's
      `canSet` on the raw proposed value. */
  predicate CanSetFeature(c: Context, s: Store, name: string, value: Value) {
    if HasFeature(s, name) then CanSet(c, name, value) else false
  }

  predicate CanEnable(c: Context, s: Store, name: string) {
    CanSetFeature(c, s, name, Bool(true))
  }

  predicate CanDisable(c: Context, s: Store, name: string) {
    CanSetFeature(c, s, name, Bool(false))
  }

  predicate CanToggle(c: Context, s: Store, name: string) {
    if Truthy(IsEnabled(c, s, name)) then CanDisable(c, s, name) else CanEnable(c, s, name)
  }

  /** `normalizeContextTrue`: the context's truthiness, forced to a boolean. */
  function NormalizeContextTrue(c: Context, v: Value): bool {
    Util.IsTrue(PolicyContext.IsTrue(c, v))
  }

  // ---------------------------------------------------------------------
  // Mutations and notification
  // ---------------------------------------------------------------------

  /** `fireEvent`: one scheduled call per registered listener, in
      registration order, all carrying the same snapshot. */
  function Broadcast(listeners: seq<ListenerId>, snapshot: Features, name: string, value: Value): (r: seq<Event>)
    ensures |r| == |listeners|
    ensures forall i | 0 <= i < |r| :: r[i] == Event(listeners[i], snapshot, name, value)
  {
    seq(|listeners|, i requires 0 <= i < |listeners| => Event(listeners[i], snapshot, name, value))
  }

  /** `setAndFireEvent`: `undefined` deletes the key, anything else stores
      its `isTrue`; then the snapshot of the updated map is broadcast. */
  function SetAndFireEvent(s: Store, name: string, value: Value): (r: Store)
    ensures r.listeners == s.listeners
    ensures value.Undefined? ==> r.features == s.features - {name}
    ensures !value.Undefined? ==> r.features == s.features[name := Util.IsTrue(value)]
    ensures r.pending == s.pending + Broadcast(s.listeners, r.features, name, value)
  {
    var f := if Util.IsUndefined(value) then s.features - {name}
             else s.features[name := Util.IsTrue(value)];
    Store(f, s.listeners, s.pending + Broadcast(s.listeners, f, name, value))
  }

  /** `addFeature`: gated only by `canAddFeatures`; stores (or overwrites)
      the context-normalised boolean. */
  function AddFeature(c: Context, s: Store, name: string, value: Value): (r: Store)
    ensures !CanAddFeatures(c) ==> r == s
    ensures CanAddFeatures(c) ==>
              r == SetAndFireEvent(s, name, Bool(NormalizeContextTrue(c, value)))
  {
    if CanAddFeatures(c) then
      SetAndFireEvent(s, name, Bool(NormalizeContextTrue(c, value)))
    else s
  }

  /** `removeFeature`: acts only on a known name when `canRemoveFeatures`
      allows it; listeners receive `undefined` as the value. */
  function RemoveFeature(c: Context, s: Store, name: string): (r: Store)
    ensures !(name in s.features && CanRemoveFeatures(c)) ==> r == s
    ensures name in s.features && CanRemoveFeatures(c) ==> r == SetAndFireEvent(s, name, Undefined)
  {
    if HasFeature(s, name) && CanRemoveFeatures(c) then SetAndFireEvent(s, name, Undefined)
    else s
  }

  /** `setEnabled`: normalises the value through the context, then acts
      only on a known name whose `canSet` approves the normalised value. */
  function SetEnabled(c: Context, s: Store, name: string, value: Value): (r: Store)
    ensures var nv := NormalizeContextTrue(c, value);
            !(name in s.features && CanSet(c, name, Bool(nv))) ==> r == s
    ensures var nv := NormalizeContextTrue(c, value);
            name in s.features && CanSet(c, name, Bool(nv)) ==>
              r == SetAndFireEvent(s, name, Bool(nv))
  {
    var nv := NormalizeContextTrue(c, value);
    if HasFeature(s, name) && CanSetFeature(c, s, name, Bool(nv)) then
      SetAndFireEvent(s, name, Bool(nv))
    else s
  }

  function Enable(c: Context, s: Store, name: string): Store {
    if CanEnable(c, s, name) then SetEnabled(c, s, name, Bool(true)) else s
  }

  function Disable(c: Context, s: Store, name: string): Store {
    if CanDisable(c, s, name) then SetEnabled(c, s, name, Bool(false)) else s
  }

  function Toggle(c: Context, s: Store, name: string): Store {
    if CanToggle(c, s, name) then
      (if Truthy(IsEnabled(c, s, name)) then Disable(c, s, name) else Enable(c, s, name))
    else s
  }

  // ---------------------------------------------------------------------
  // Conditional execution
  // ---------------------------------------------------------------------

  /** `ifEnabled`: `Some(result of context.execute(fn, args))` when the
      feature is enabled, `None` (no call, `undefined`) otherwise. */
  function IfEnabled(c: Context, s: Store, name: string, fn: JsFunction, args: seq<Value>): (r: Option<Value>)
    ensures r.Some? <==> Truthy(IsEnabled(c, s, name))
    ensures r.Some? ==> r.value == Execute(c, fn, args)
  {
    if Truthy(IsEnabled(c, s, name)) then Some(Execute(c, fn, args)) else None
  }

  /** `ifDisabled`: runs only for a known feature that is disabled. */
  function IfDisabled(c: Context, s: Store, name: string, fn: JsFunction, args: seq<Value>): (r: Option<Value>)
    ensures r.Some? <==> name in s.features && IsDisabled(c, s, name)
    ensures r.Some? ==> r.value == Execute(c, fn, args)
  {
    if HasFeature(s, name) && IsDisabled(c, s, name) then Some(Execute(c, fn, args)) else None
  }

  datatype Branch = EnabledBranch | DisabledBranch

  /** `decide`: calls `ifEnabled` then `ifDisabled` and returns nothing;
      the model returns which branches reached `context.execute`, in order:
      exactly one for a known feature, none for an unknown one. */
  function Decide(c: Context, s: Store, name: string,
                  enabledFn: JsFunction, disabledFn: JsFunction,
                  enabledArgs: seq<Value>, disabledArgs: seq<Value>): (r: seq<Branch>)
    ensures name !in s.features ==> r == []
    ensures name in s.features ==>
              r == (if Truthy(IsEnabled(c, s, name)) then [EnabledBranch] else [DisabledBranch])
  {
    (if IfEnabled(c, s, name, enabledFn, enabledArgs).Some? then [EnabledBranch] else [])
    + (if IfDisabled(c, s, name, disabledFn, disabledArgs).Some? then [DisabledBranch] else [])
  }

  // ---------------------------------------------------------------------
  // Aggregates
  // ---------------------------------------------------------------------

  /** A value that is not an array; every array is a `NameArray`. */
  type NonArray = v: Value | !v.Arr? witness Undefined

  /** The `names` argument of the aggregates: an array of names, or a
      non-array, which counts as an empty list. */
  datatype Names = NameArray(names: seq<string>) | NotAnArray(v: NonArray)

  function NameList(n: Names): seq<string> {
    match n
    case NameArray(ns) => ns
    case NotAnArray(_) => []
  }

  /** `pluckValues`: the context's `isEnabled` for every listed name (known
      or not) on a snapshot of the map, forced to a boolean. */
  function PluckValues(c: Context, s: Store, names: Names): (r: seq<bool>)
    ensures |r| == |NameList(names)|
  {
    var ns := NameList(names);
    seq(|ns|, i requires 0 <= i < |ns| =>
          Util.IsTrue(PolicyContext.IsEnabled(c, ns[i], s.features, s.features)))
  }

  /** `bs.some(b => b == want)`. */
  function SomeAre(bs: seq<bool>, want: bool): (r: bool)
    ensures r <==> exists i | 0 <= i < |bs| :: bs[i] == want
  {
    if |bs| == 0 then false
    else bs[0] == want || SomeAre(bs[1..], want)
  }

  /** `bs.every(b => b == want)`. */
  function AllAre(bs: seq<bool>, want: bool): (r: bool)
    ensures r <==> forall i | 0 <= i < |bs| :: bs[i] == want
  {
    if |bs| == 0 then true
    else bs[0] == want && AllAre(bs[1..], want)
  }

  predicate IsAnyEnabled(c: Context, s: Store, names: Names) {
    SomeAre(PluckValues(c, s, names), true)
  }

  predicate IsAllEnabled(c: Context, s: Store, names: Names) {
    AllAre(PluckValues(c, s, names), true)
  }

  predicate IsAnyDisabled(c: Context, s: Store, names: Names) {
    SomeAre(PluckValues(c, s, names), false)
  }

  predicate IsAllDisabled(c: Context, s: Store, names: Names) {
    AllAre(PluckValues(c, s, names), false)
  }

  // ---------------------------------------------------------------------
  // Delivery of scheduled notifications
  // ---------------------------------------------------------------------

  /** What a listener does when its scheduled call runs: the entry is not a
      function (the call is skipped), it returns, or it throws. */
  datatype Outcome = NotCallable | Returns | Throws(error: Value)

  /** An observable step of a delivery. */
  datatype Effect =
    | ListenerCalled(listener: ListenerId, snapshot: Features, name: string, value: Value)
    | ErrorReported(error: Value, listener: ListenerId, name: string, value: Value, snapshot: Features)

  /** The body of one scheduled callback: call the listener with
      (snapshot, name, value); a throw goes to `onListenerError` with
      (error, listener, name, value, snapshot). */
  function RunCallback(c: Context, e: Event, o: Outcome): (r: seq<Effect>)
    ensures o.NotCallable? <==> r == []
    ensures !o.NotCallable? ==> r[0] == ListenerCalled(e.listener, e.snapshot, e.name, e.value)
  {
    match o
    case NotCallable => []
    case Returns => [ListenerCalled(e.listener, e.snapshot, e.name, e.value)]
    case Throws(err) =>
      [ListenerCalled(e.listener, e.snapshot, e.name, e.value)]
      + (if ReportsListenerErrors(c) then [ErrorReported(err, e.listener, e.name, e.value, e.snapshot)]
         else [])
  }

  /** Run the oldest scheduled callback, if any. */
  function Deliver(c: Context, s: Store, behaviour: Event -> Outcome): (r: (Store, seq<Effect>))
    ensures |s.pending| == 0 ==> r == (s, [])
    ensures |s.pending| > 0 ==>
              r.0 == s.(pending := s.pending[1..]) &&
              r.1 == RunCallback(c, s.pending[0], behaviour(s.pending[0]))
  {
    if |s.pending| == 0 then (s, [])
    else
      var e := s.pending[0];
      (s.(pending := s.pending[1..]), RunCallback(c, e, behaviour(e)))
  }

  /** Run every scheduled callback, oldest first, collecting the effects. */
  function DeliverAll(c: Context, s: Store, behaviour: Event -> Outcome): (r: seq<Effect>)
    decreases |s.pending|
  {
    if |s.pending| == 0 then []
    else
      var (s', eff) := Deliver(c, s, behaviour);
      eff + DeliverAll(c, s', behaviour)
  }

  // ---------------------------------------------------------------------
  // Listener registration
  // ---------------------------------------------------------------------

  /** `addChangeListener`: the listener goes to the end of the list. */
  function AddChangeListener(s: Store, l: ListenerId): (r: Store)
    ensures r.features == s.features && r.pending == s.pending
    ensures r.listeners == s.listeners + [l]
  {
    s.(listeners := s.listeners + [l])
  }

  /** The position of the first entry identical to `l`. */
  function IndexOf(ls: seq<ListenerId>, l: ListenerId): (i: nat)
    requires l in ls
    ensures i < |ls| && ls[i] == l && l !in ls[..i]
  {
    if ls[0] == l then 0
    else
      var j := IndexOf(ls[1..], l);
      assert ls[..j + 1] == [ls[0]] + ls[1..][..j];
      j + 1
  }

  /** The list without its first entry identical to `l` (unchanged when
      there is none). */
  function RemoveFirst(ls: seq<ListenerId>, l: ListenerId): (r: seq<ListenerId>)
    ensures l !in ls ==> r == ls
    ensures l in ls ==> r == ls[..IndexOf(ls, l)] + ls[IndexOf(ls, l) + 1..]
    ensures multiset(r) == multiset(ls) - multiset{l}
  {
    if |ls| == 0 then []
    else if ls[0] == l then
      assert ls == [ls[0]] + ls[1..];
      ls[1..]
    else
      var rest := RemoveFirst(ls[1..], l);
      RemoveFirstStep(ls, l, rest);
      [ls[0]] + rest
  }

  lemma RemoveFirstStep(ls: seq<ListenerId>, l: ListenerId, rest: seq<ListenerId>)
    requires |ls| > 0 && ls[0] != l
    requires l !in ls[1..] ==> rest == ls[1..]
    requires l in ls[1..] ==> rest == ls[1..][..IndexOf(ls[1..], l)] + ls[1..][IndexOf(ls[1..], l) + 1..]
    requires multiset(rest) == multiset(ls[1..]) - multiset{l}
    ensures l !in ls ==> [ls[0]] + rest == ls
    ensures l in ls ==> [ls[0]] + rest == ls[..IndexOf(ls, l)] + ls[IndexOf(ls, l) + 1..]
    ensures multiset([ls[0]] + rest) == multiset(ls) - multiset{l}
  {
    KeepHeadAbsent(ls, l, rest);
    KeepHeadPresent(ls, l, rest);
    KeepHeadMultiset(ls, l, rest);
  }

  lemma KeepHeadAbsent(ls: seq<ListenerId>, l: ListenerId, rest: seq<ListenerId>)
    requires |ls| > 0 && ls[0] != l
    requires l !in ls[1..] ==> rest == ls[1..]
    ensures l !in ls ==> [ls[0]] + rest == ls
  {
    assert ls == [ls[0]] + ls[1..];
  }

  lemma KeepHeadPresent(ls: seq<ListenerId>, l: ListenerId, rest: seq<ListenerId>)
    requires |ls| > 0 && ls[0] != l
    requires l in ls[1..] ==> rest == ls[1..][..IndexOf(ls[1..], l)] + ls[1..][IndexOf(ls[1..], l) + 1..]
    ensures l in ls ==> [ls[0]] + rest == ls[..IndexOf(ls, l)] + ls[IndexOf(ls, l) + 1..]
  {
    if l in ls {
      assert l in ls[1..] by { assert ls == [ls[0]] + ls[1..]; }
      var j := IndexOf(ls[1..], l);
      assert IndexOf(ls, l) == j + 1;
      assert ls[..j + 1] == [ls[0]] + ls[1..][..j];
      assert ls[j + 2..] == ls[1..][j + 1..];
    }
  }

  lemma KeepHeadMultiset(ls: seq<ListenerId>, l: ListenerId, rest: seq<ListenerId>)
    requires |ls| > 0 && ls[0] != l
    requires multiset(rest) == multiset(ls[1..]) - multiset{l}
    ensures multiset([ls[0]] + rest) == multiset(ls) - multiset{l}
  {
    assert ls == [ls[0]] + ls[1..];
  }

  /** Any index holding `l` with no `l` before it is the first index. */
  lemma FirstIndexUnique(ls: seq<ListenerId>, l: ListenerId, i: nat)
    requires i < |ls| && ls[i] == l && l !in ls[..i]
    ensures IndexOf(ls, l) == i
  {
  }

  /** `findIndex(l => l === listener)`: -1 when absent. */
  method FindIndex(ls: seq<ListenerId>, l: ListenerId) returns (idx: int)
    ensures -1 <= idx < |ls|
    ensures idx == -1 <==> l !in ls
    ensures idx >= 0 ==> ls[idx] == l && l !in ls[..idx]
  {
    idx := 0;
    while idx < |ls|
      invariant 0 <= idx <= |ls|
      invariant l !in ls[..idx]
    {
      if ls[idx] == l {
        return;
      }
      idx := idx + 1;
    }
    assert ls[..idx] == ls;
    idx := -1;
  }

  /** The closure `addChangeListener` returns: find the first identical
      entry and splice it out. */
  method Unsubscribe(s: Store, l: ListenerId) returns (r: Store)
    ensures r.features == s.features && r.pending == s.pending
    ensures r.listeners == RemoveFirst(s.listeners, l)
  {
    var index := FindIndex(s.listeners, l);
    if index != -1 {
      r := s.(listeners := s.listeners[..index] + s.listeners[index + 1..]);
      RemoveFirstAt(s.listeners, l, index);
    } else {
      r := s;
    }
  }

  /** Removing the first occurrence found at index `i` is `RemoveFirst`. */
  lemma RemoveFirstAt(ls: seq<ListenerId>, l: ListenerId, i: nat)
    requires i < |ls| && ls[i] == l && l !in ls[..i]
    ensures RemoveFirst(ls, l) == ls[..i] + ls[i + 1..]
  {
    FirstIndexUnique(ls, l, i);
  }
}

=== FILE: feature_manager_props.dfy ===
/** Properties of the feature store in src/feature-manager.js: what
    construction produces, what each mutation changes and whom it notifies,
    how the queries answer for unknown names, how delivery treats throwing
    listeners, and what unsubscribing removes. */
module FeatureManagerProperties {
  import opened Wrappers
  import opened JsValues
  import Util
  import PolicyContext
  import opened FeatureManager

  type Context = PolicyContext.Context
  type Features = PolicyContext.Features
  type ListenerId = PolicyContext.ListenerId

  // ---------------------------------------------------------------------
  // Frames
  // ---------------------------------------------------------------------

  /** `after` agrees with `before` on every key other than `name`. */
  predicate OnlyKeyChanged(before: Features, after: Features, name: string) {
    forall k | k in before.Keys + after.Keys && k != name ::
      k in before && k in after && after[k] == before[k]
  }

  /** `r` is `s` after one notifying change of `name` to `value`: the
      listeners are kept, and the queue gains one event per listener, in
      registration order, each carrying the map as it is after the change. */
  predicate NotifiedOnce(s: Store, r: Store, name: string, value: Value) {
    && r.listeners == s.listeners
    && |r.pending| == |s.pending| + |s.listeners|
    && r.pending[..|s.pending|] == s.pending
    && forall i | 0 <= i < |s.listeners| ::
         r.pending[|s.pending| + i] == Event(s.listeners[i], r.features, name, value)
  }

  /** The context-normalised value as stored: `Util.isTrue` of a boolean
      is that boolean. */
  lemma IsTrueOfBool(b: bool)
    ensures Util.IsTrue(Bool(b)) == b
  {
    Util.IsTrueOnNonArrays(Bool(b));
  }

  /** `setAndFireEvent` changes only `name`, deletes it for `undefined`,
      stores `isTrue(value)` otherwise, and queues one event per listener. */
  lemma SetAndFireEventSpec(s: Store, name: string, value: Value)
    ensures var r := SetAndFireEvent(s, name, value);
      && OnlyKeyChanged(s.features, r.features, name)
      && NotifiedOnce(s, r, name, value)
      && (value.Undefined? ==> name !in r.features)
      && (!value.Undefined? ==> name in r.features && r.features[name] == Util.IsTrue(value))
  {
    var r := SetAndFireEvent(s, name, value);
    assert r.pending[..|s.pending|] == s.pending;
  }

  // ---------------------------------------------------------------------
  // Construction
  // ---------------------------------------------------------------------

  /** The constructor works on a JSON copy of its input: a plain object
      keeps its serialisable keys, each normalised as
      `isTrue(decider(copy of value))`; any other serialisable input gives
      an empty set; the store starts with no listeners and no events. */
  lemma ConstructNormalises(input: Value, raw: PolicyContext.RawContext)
    requires !Unserialisable(input)
    ensures var r := Construct(input, raw);
      && r.Some?
      && r.value.1.listeners == [] && r.value.1.pending == []
      && (input.Obj? ==>
            r.value.1.features.Keys == (set k | k in input.fields && !Unserialisable(input.fields[k])))
      && (input.Obj? ==> forall k | k in input.fields && !Unserialisable(input.fields[k]) ::
            r.value.1.features[k] ==
              Util.IsTrue(PolicyContext.ApplyIsTrue(ConstructorDecider(raw), JsonCopy(input.fields[k]))))
      && (!input.Obj? ==> r.value.1.features == map[])
  {
  }

  /** The decider used before the context exists is the context's own
      `isTrue` slot once it is built. */
  lemma DeciderMatchesContext(raw: PolicyContext.RawContext, v: Value)
    ensures PolicyContext.ApplyIsTrue(ConstructorDecider(raw), v) ==
            PolicyContext.IsTrue(PolicyContext.CreateContext(raw), v)
  {
  }

  /** `new FeatureManager({a: 'true', b: 'false', c: 1, d: undefined})`
      with no context stores `{a: true, b: false, c: false}`. */
  lemma ConstructExample()
    ensures var input := Obj(map["a" := Str("true"), "b" := Str("false"), "c" := Num(1), "d" := Undefined]);
      var r := Construct(input, PolicyContext.NotAnObject(Undefined));
      r.Some? && r.value.1.features == map["a" := true, "b" := false, "c" := false]
  {
    var input := Obj(map["a" := Str("true"), "b" := Str("false"), "c" := Num(1), "d" := Undefined]);
    var copy := Obj(map["a" := Str("true"), "b" := Str("false"), "c" := Num(1)]);
    JsonCopyExample();
    assert Clone(input) == Some(copy);
    CastExample();
  }

  lemma JsonCopyExample()
    ensures JsonCopy(Obj(map["a" := Str("true"), "b" := Str("false"), "c" := Num(1), "d" := Undefined]))
         == Obj(map["a" := Str("true"), "b" := Str("false"), "c" := Num(1)])
  {
    var input := map["a" := Str("true"), "b" := Str("false"), "c" := Num(1), "d" := Undefined];
    var r := JsonCopy(Obj(input));
    assert r.fields.Keys == {"a", "b", "c"};
  }

  lemma CastExample()
    ensures CastAsFeatures(Obj(map["a" := Str("true"), "b" := Str("false"), "c" := Num(1)]), PolicyContext.Default)
         == map["a" := true, "b" := false, "c" := false]
  {
    NormalisedExample();
    var f := CastAsFeatures(Obj(map["a" := Str("true"), "b" := Str("false"), "c" := Num(1)]), PolicyContext.Default);
    assert f.Keys == {"a", "b", "c"};
  }

  /** The per-value steps of the example: 'true' gives true, 'false' and 1 give false. */
  lemma NormalisedExample()
    ensures Util.IsTrue(PolicyContext.ApplyIsTrue(PolicyContext.Default, Str("true")))
    ensures !Util.IsTrue(PolicyContext.ApplyIsTrue(PolicyContext.Default, Str("false")))
    ensures !Util.IsTrue(PolicyContext.ApplyIsTrue(PolicyContext.Default, Num(1)))
  {
    Util.IsTrueOnNonArrays(Str("true"));
    Util.IsTrueOnNonArrays(Str("false"));
    Util.IsTrueOnNonArrays(Num(1));
    IsTrueOfBool(true);
    IsTrueOfBool(false);
  }

  /** `isFeatures` only asks for a truthy non-array object, so an object
      with a string value passes; arrays, `null` and strings do not. */
  lemma IsFeaturesExamples()
    ensures IsFeatures(Obj(map["a" := Str("x")]))
    ensures !IsFeaturesStrict(Obj(map["a" := Str("x")]))
    ensures !IsFeatures(Arr([])) && !IsFeatures(Null) && !IsFeatures(Str("x"))
  {
    Util.IsTrueOnNonArrays(Str("x"));
    Util.IsFalseOnNonArrays(Str("x"));
    assert !Util.IsBoolean(Obj(map["a" := Str("x")]).fields["a"]);
  }

  // ---------------------------------------------------------------------
  // Unknown names
  // ---------------------------------------------------------------------

  /** For a name the store does not hold, it is not enabled, it is
      disabled, nothing may set it, and neither conditional runs. */
  lemma UnknownName(c: Context, s: Store, name: string, v: Value,
                    fn: PolicyContext.JsFunction, args: seq<Value>)
    requires name !in s.features
    ensures IsEnabled(c, s, name) == Bool(false) && IsDisabled(c, s, name)
    ensures !CanSetFeature(c, s, name, v) && !CanEnable(c, s, name) && !CanDisable(c, s, name)
    ensures IfEnabled(c, s, name, fn, args).None? && IfDisabled(c, s, name, fn, args).None?
    ensures SetEnabled(c, s, name, v) == s && RemoveFeature(c, s, name) == s
  {
  }

  // ---------------------------------------------------------------------
  // Mutations
  // ---------------------------------------------------------------------

  /** `addFeature`: gated only by `canAddFeatures`; it stores the
      context-normalised boolean (overwriting an existing key), leaves
      other keys alone and notifies every listener. */
  lemma AddFeatureSpec(c: Context, s: Store, name: string, v: Value)
    ensures var r := AddFeature(c, s, name, v);
      var nv := NormalizeContextTrue(c, v);
      && (!PolicyContext.CanAddFeatures(c) ==> r == s)
      && (PolicyContext.CanAddFeatures(c) ==>
            name in r.features && r.features[name] == nv &&
            OnlyKeyChanged(s.features, r.features, name) &&
            NotifiedOnce(s, r, name, Bool(nv)))
  {
    var nv := NormalizeContextTrue(c, v);
    IsTrueOfBool(nv);
    SetAndFireEventSpec(s, name, Bool(nv));
  }

  /** `removeFeature`: acts only on a known name that `canRemoveFeatures`
      allows; afterwards `hasFeature` is false, other keys are untouched,
      and listeners receive `undefined`. */
  lemma RemoveFeatureSpec(c: Context, s: Store, name: string)
    ensures var r := RemoveFeature(c, s, name);
      && (!(name in s.features && PolicyContext.CanRemoveFeatures(c)) ==> r == s)
      && (name in s.features && PolicyContext.CanRemoveFeatures(c) ==>
            !HasFeature(r, name) &&
            OnlyKeyChanged(s.features, r.features, name) &&
            NotifiedOnce(s, r, name, Undefined))
  {
    SetAndFireEventSpec(s, name, Undefined);
  }

  /** The condition under which `setEnabled(name, v)` acts. */
  predicate SetAllowed(c: Context, s: Store, name: string, v: Value) {
    name in s.features && PolicyContext.CanSet(c, name, Bool(NormalizeContextTrue(c, v)))
  }

  /** `setEnabled`: when refused the store is unchanged (map and queue);
      when allowed, exactly `name` takes the context-normalised value and
      every listener is notified. */
  lemma SetEnabledSpec(c: Context, s: Store, name: string, v: Value)
    ensures var r := SetEnabled(c, s, name, v);
      var nv := NormalizeContextTrue(c, v);
      && (!SetAllowed(c, s, name, v) ==> r == s)
      && (SetAllowed(c, s, name, v) ==>
            r.features == s.features[name := nv] && NotifiedOnce(s, r, name, Bool(nv)))
  {
    var nv := NormalizeContextTrue(c, v);
    IsTrueOfBool(nv);
    SetAndFireEventSpec(s, name, Bool(nv));
  }

  /** `enable` asks `canSet(name, true)` first, then `setEnabled` asks
      again with the normalised value; only when both agree does the map
      change. */
  lemma EnableSpec(c: Context, s: Store, name: string)
    ensures var r := Enable(c, s, name);
      var nv := NormalizeContextTrue(c, Bool(true));
      && (!(CanEnable(c, s, name) && SetAllowed(c, s, name, Bool(true))) ==> r == s)
      && (CanEnable(c, s, name) && SetAllowed(c, s, name, Bool(true)) ==>
            r.features == s.features[name := nv] && NotifiedOnce(s, r, name, Bool(nv)))
  {
    SetEnabledSpec(c, s, name, Bool(true));
  }

  /** `disable`, the mirror image of `enable`. */
  lemma DisableSpec(c: Context, s: Store, name: string)
    ensures var r := Disable(c, s, name);
      var nv := NormalizeContextTrue(c, Bool(false));
      && (!(CanDisable(c, s, name) && SetAllowed(c, s, name, Bool(false))) ==> r == s)
      && (CanDisable(c, s, name) && SetAllowed(c, s, name, Bool(false)) ==>
            r.features == s.features[name := nv] && NotifiedOnce(s, r, name, Bool(nv)))
  {
    SetEnabledSpec(c, s, name, Bool(false));
  }

  /** `toggle` sets the opposite of what `isEnabled` reports, subject to
      the same two permission questions; an unknown name is never touched. */
  lemma ToggleSpec(c: Context, s: Store, name: string)
    ensures var r := Toggle(c, s, name);
      var want := !Truthy(IsEnabled(c, s, name));
      var nv := NormalizeContextTrue(c, Bool(want));
      && (name !in s.features ==> r == s)
      && (!(CanSetFeature(c, s, name, Bool(want)) && SetAllowed(c, s, name, Bool(want))) ==> r == s)
      && (CanSetFeature(c, s, name, Bool(want)) && SetAllowed(c, s, name, Bool(want)) ==>
            r.features == s.features[name := nv] && NotifiedOnce(s, r, name, Bool(nv)))
  {
    if Truthy(IsEnabled(c, s, name)) {
      DisableSpec(c, s, name);
    } else {
      EnableSpec(c, s, name);
    }
  }

  // ---------------------------------------------------------------------
  // The default context
  // ---------------------------------------------------------------------

  /** The slots the mutations consult, all left at their defaults. */
  predicate DefaultPolicy(c: Context) {
    c.isTrue.Default? && c.isEnabled.Default? && c.canSet.Default?
  }

  /** With the default context, `isEnabled` reads the stored boolean. */
  lemma DefaultIsEnabled(c: Context, s: Store, name: string)
    requires c.isEnabled.Default?
    ensures IsEnabled(c, s, name) == Bool(name in s.features && s.features[name])
  {
    PolicyContext.DefaultIsEnabledReadsLive(c, name, s.features, s.features);
  }

  /** After `setEnabled(name, v)` on a known name, `isEnabled(name)` is
      `Util.isTrue(v)`. */
  lemma SetThenIsEnabled(c: Context, s: Store, name: string, v: Value)
    requires DefaultPolicy(c) && name in s.features
    ensures IsEnabled(c, SetEnabled(c, s, name, v), name) == Bool(Util.IsTrue(v))
  {
    IsTrueOfBool(Util.IsTrue(v));
    SetEnabledSpec(c, s, name, v);
    DefaultIsEnabled(c, SetEnabled(c, s, name, v), name);
  }

  /** With the default context, `toggle` flips the stored boolean of a
      known name and notifies with the new value. */
  lemma ToggleFlips(c: Context, s: Store, name: string)
    requires DefaultPolicy(c) && name in s.features
    ensures var r := Toggle(c, s, name);
      r.features == s.features[name := !s.features[name]] &&
      NotifiedOnce(s, r, name, Bool(!s.features[name]))
  {
    DefaultIsEnabled(c, s, name);
    IsTrueOfBool(!s.features[name]);
    IsTrueOfBool(Util.IsTrue(Bool(!s.features[name])));
    ToggleSpec(c, s, name);
  }

  /** With the default context, toggling twice restores the map, and the
      queue has gained two events per listener. */
  lemma ToggleTwiceRestores(c: Context, s: Store, name: string)
    requires DefaultPolicy(c) && name in s.features
    ensures var r := Toggle(c, Toggle(c, s, name), name);
      r.features == s.features && r.listeners == s.listeners &&
      |r.pending| == |s.pending| + 2 * |s.listeners|
  {
    var s1 := Toggle(c, s, name);
    ToggleFlips(c, s, name);
    ToggleFlips(c, s1, name);
    assert s1.features[name := !s1.features[name]] == s.features;
  }

  /** With default permissions, adding a new name and removing it again
      gives back the original map. */
  lemma AddThenRemove(c: Context, s: Store, name: string, v: Value)
    requires c.canAddFeatures.Default? && c.canRemoveFeatures.Default?
    requires name !in s.features
    ensures RemoveFeature(c, AddFeature(c, s, name, v), name).features == s.features
  {
    var s1 := AddFeature(c, s, name, v);
    AddFeatureSpec(c, s, name, v);
    RemoveFeatureSpec(c, s1, name);
    assert s1.features - {name} == s.features;
  }

  // ---------------------------------------------------------------------
  // Aggregates
  // ---------------------------------------------------------------------

  /** The disabled aggregates are the negations of the enabled ones. */
  lemma AggregatesDeMorgan(c: Context, s: Store, names: Names)
    ensures IsAnyDisabled(c, s, names) <==> !IsAllEnabled(c, s, names)
    ensures IsAllDisabled(c, s, names) <==> !IsAnyEnabled(c, s, names)
  {
  }

  /** On an empty list, or a non-array, "any" is false and "all" is true. */
  lemma AggregatesOnNoNames(c: Context, s: Store, names: Names)
    requires NameList(names) == []
    ensures !IsAnyEnabled(c, s, names) && IsAllEnabled(c, s, names)
    ensures !IsAnyDisabled(c, s, names) && IsAllDisabled(c, s, names)
  {
  }

  /** With the default `isEnabled`, the aggregates agree with the store's
      own `isEnabled` for every listed name, known or not. */
  lemma AggregatesMatchIsEnabled(c: Context, s: Store, names: Names)
    requires c.isEnabled.Default?
    ensures IsAllEnabled(c, s, names) <==>
              forall i | 0 <= i < |NameList(names)| :: Truthy(IsEnabled(c, s, NameList(names)[i]))
    ensures IsAnyEnabled(c, s, names) <==>
              exists i | 0 <= i < |NameList(names)| :: Truthy(IsEnabled(c, s, NameList(names)[i]))
  {
    var ns := NameList(names);
    var bs := PluckValues(c, s, names);
    forall i | 0 <= i < |ns|
      ensures bs[i] == Truthy(IsEnabled(c, s, ns[i]))
    {
      DefaultIsEnabled(c, s, ns[i]);
      PolicyContext.DefaultIsEnabledReadsLive(c, ns[i], s.features, s.features);
      IsTrueOfBool(ns[i] in s.features && s.features[ns[i]]);
    }
  }

  /** `{a: true, b: false}` with `['a', 'b']`: some enabled, not all. */
  lemma AggregatesExample(c: Context)
    requires c.isEnabled.Default?
    ensures var s := Store(map["a" := true, "b" := false], [], []);
      var names := NameArray(["a", "b"]);
      IsAnyEnabled(c, s, names) && !IsAllEnabled(c, s, names) &&
      IsAnyDisabled(c, s, names) && !IsAllDisabled(c, s, names)
  {
    var s := Store(map["a" := true, "b" := false], [], []);
    var names := NameArray(["a", "b"]);
    PolicyContext.DefaultIsEnabledReadsLive(c, "a", s.features, s.features);
    PolicyContext.DefaultIsEnabledReadsLive(c, "b", s.features, s.features);
    IsTrueOfBool(true);
    IsTrueOfBool(false);
    var bs := PluckValues(c, s, names);
    assert bs == [true, false];
    assert bs[0] && !bs[1];
    AggregatesDeMorgan(c, s, names);
  }

  /** The aggregates ask the context about every listed name without a
      `hasFeature` check, so a custom `isEnabled` can report an unknown
      name as enabled there while `isEnabled` says false. */
  lemma AggregatesConsultUnknownNames(c: Context, s: Store, name: string)
    requires c.isEnabled == PolicyContext.Override((n: string, f: Features) => Bool(true))
    requires name !in s.features
    ensures IsAnyEnabled(c, s, NameArray([name]))
    ensures IsEnabled(c, s, name) == Bool(false)
  {
    IsTrueOfBool(true);
    assert PluckValues(c, s, NameArray([name]))[0];
  }

  // ---------------------------------------------------------------------
  // Delivery
  // ---------------------------------------------------------------------

  /** The events among `es` whose listener is a function. */
  function CallableEvents(es: seq<Event>, behaviour: Event -> Outcome): (r: seq<Event>)
    ensures |r| <= |es|
  {
    if |es| == 0 then []
    else (if behaviour(es[0]).NotCallable? then [] else [es[0]]) + CallableEvents(es[1..], behaviour)
  }

  /** The events among `es` whose listener throws, with the error thrown. */
  function ThrowingEvents(es: seq<Event>, behaviour: Event -> Outcome): (r: seq<(Value, Event)>)
    ensures |r| <= |es|
  {
    if |es| == 0 then []
    else (if behaviour(es[0]).Throws? then [(behaviour(es[0]).error, es[0])] else [])
         + ThrowingEvents(es[1..], behaviour)
  }

  /** The listener call one effect records, if it records one. */
  function CallOf(e: Effect): seq<Event> {
    if e.ListenerCalled? then [Event(e.listener, e.snapshot, e.name, e.value)] else []
  }

  /** The `onListenerError` call one effect records, if it records one. */
  function ErrorOf(e: Effect): seq<(Value, Event)> {
    if e.ErrorReported? then [(e.error, Event(e.listener, e.snapshot, e.name, e.value))] else []
  }

  /** The listener calls recorded in a list of effects, as events. */
  function CallsIn(effs: seq<Effect>): seq<Event> {
    if |effs| == 0 then [] else CallOf(effs[0]) + CallsIn(effs[1..])
  }

  /** The `onListenerError` calls recorded in a list of effects. */
  function ErrorsIn(effs: seq<Effect>): seq<(Value, Event)> {
    if |effs| == 0 then [] else ErrorOf(effs[0]) + ErrorsIn(effs[1..])
  }

  lemma {:induction false} CallsInAppend(a: seq<Effect>, b: seq<Effect>)
    ensures CallsIn(a + b) == CallsIn(a) + CallsIn(b)
    decreases |a|
  {
    if |a| == 0 {
      assert a + b == b;
    } else {
      assert (a + b)[0] == a[0];
      assert (a + b)[1..] == a[1..] + b;
      CallsInAppend(a[1..], b);
    }
  }

  lemma {:induction false} ErrorsInAppend(a: seq<Effect>, b: seq<Effect>)
    ensures ErrorsIn(a + b) == ErrorsIn(a) + ErrorsIn(b)
    decreases |a|
  {
    if |a| == 0 {
      assert a + b == b;
    } else {
      assert (a + b)[0] == a[0];
      assert (a + b)[1..] == a[1..] + b;
      ErrorsInAppend(a[1..], b);
    }
  }

  /** One callback records a call exactly when the listener is a
      function, and an error report exactly when it throws and a caller's
      handler is installed. */
  lemma RunCallbackRecords(c: Context, e: Event, o: Outcome)
    ensures CallsIn(RunCallback(c, e, o)) == (if o.NotCallable? then [] else [e])
    ensures ErrorsIn(RunCallback(c, e, o)) ==
              (if o.Throws? && PolicyContext.ReportsListenerErrors(c) then [(o.error, e)] else [])
  {
    var r := RunCallback(c, e, o);
    if o.Throws? && PolicyContext.ReportsListenerErrors(c) {
      var rest := r[1..];
      assert rest == [ErrorReported(o.error, e.listener, e.name, e.value, e.snapshot)];
      assert rest[1..] == [];
      assert CallsIn(rest) == [];
      assert ErrorsIn(rest) == [(o.error, e)];
    } else if !o.NotCallable? {
      assert r[1..] == [];
    }
  }

  /** Delivering the whole queue calls every listener that is a function,
      in queue order, even after earlier listeners threw. */
  lemma {:induction false} DeliverAllCallsEveryListener(c: Context, s: Store, behaviour: Event -> Outcome)
    ensures CallsIn(DeliverAll(c, s, behaviour)) == CallableEvents(s.pending, behaviour)
    decreases |s.pending|
  {
    if |s.pending| > 0 {
      var e := s.pending[0];
      var s' := s.(pending := s.pending[1..]);
      var eff := RunCallback(c, e, behaviour(e));
      assert DeliverAll(c, s, behaviour) == eff + DeliverAll(c, s', behaviour);
      DeliverAllCallsEveryListener(c, s', behaviour);
      CallsInAppend(eff, DeliverAll(c, s', behaviour));
      RunCallbackRecords(c, e, behaviour(e));
    }
  }

  /** Every throw reaches a caller's `onListenerError`, in queue order,
      with the error and the event's listener, name, value and snapshot;
      under the default handler (a console warning) nothing is reported. */
  lemma {:induction false} DeliverAllReportsEveryError(c: Context, s: Store, behaviour: Event -> Outcome)
    ensures ErrorsIn(DeliverAll(c, s, behaviour)) ==
              (if PolicyContext.ReportsListenerErrors(c) then ThrowingEvents(s.pending, behaviour) else [])
    decreases |s.pending|
  {
    if |s.pending| > 0 {
      var e := s.pending[0];
      var s' := s.(pending := s.pending[1..]);
      var eff := RunCallback(c, e, behaviour(e));
      assert DeliverAll(c, s, behaviour) == eff + DeliverAll(c, s', behaviour);
      DeliverAllReportsEveryError(c, s', behaviour);
      ErrorsInAppend(eff, DeliverAll(c, s', behaviour));
      RunCallbackRecords(c, e, behaviour(e));
    }
  }

  /** Listener 1 throws "boom"; every other listener returns. */
  function FirstThrows(e: Event): Outcome {
    if e.listener == 1 then Throws(Str("boom")) else Returns
  }

  /** Two listeners, the first of which throws: with a caller's
      `onListenerError`, the first is called, the error is reported with
      the listener, name, value and snapshot, and the second still runs. */
  lemma ThrowingListenerExample(c: Context, f: Features, name: string)
    requires PolicyContext.ReportsListenerErrors(c)
    ensures var s := SetAndFireEvent(Store(f, [1, 2], []), name, Bool(true));
      DeliverAll(c, s, FirstThrows) ==
        [ListenerCalled(1, s.features, name, Bool(true)),
         ErrorReported(Str("boom"), 1, name, Bool(true), s.features),
         ListenerCalled(2, s.features, name, Bool(true))]
  {
    var s := SetAndFireEvent(Store(f, [1, 2], []), name, Bool(true));
    var e1 := Event(1, s.features, name, Bool(true));
    var e2 := Event(2, s.features, name, Bool(true));
    assert s.pending == [e1, e2];
    var s1 := Deliver(c, s, FirstThrows).0;
    assert s1.pending == [e2];
    var s2 := Deliver(c, s1, FirstThrows).0;
    assert s2.pending == [];
    assert DeliverAll(c, s2, FirstThrows) == [];
    assert DeliverAll(c, s1, FirstThrows) == [ListenerCalled(2, s.features, name, Bool(true))];
  }

  // ---------------------------------------------------------------------
  // Listener registration
  // ---------------------------------------------------------------------

  /** Subscribing a listener that is not yet registered and then calling
      the returned unsubscribe gives back the original listener list. */
  lemma SubscribeThenUnsubscribe(s: Store, l: ListenerId)
    requires l !in s.listeners
    ensures RemoveFirst(AddChangeListener(s, l).listeners, l) == s.listeners
  {
    var ls := s.listeners + [l];
    assert ls[..|s.listeners|] == s.listeners;
    RemoveFirstAt(ls, l, |s.listeners|);
    assert ls[..|s.listeners|] + ls[|s.listeners| + 1..] == s.listeners;
  }

  /** Unsubscribing removes exactly one identical entry when there is one,
      keeping the others in order, and nothing otherwise. */
  lemma UnsubscribeRemovesOne(ls: seq<ListenerId>, l: ListenerId)
    ensures l in ls ==> |RemoveFirst(ls, l)| == |ls| - 1
    ensures l !in ls ==> RemoveFirst(ls, l) == ls
    ensures forall m | m != l :: multiset(RemoveFirst(ls, l))[m] == multiset(ls)[m]
  {
  }

  /** When `l` is registered at most once, a second unsubscribe call
      changes nothing. */
  lemma UnsubscribeTwiceOnce(ls: seq<ListenerId>, l: ListenerId)
    requires multiset(ls)[l] <= 1
    ensures RemoveFirst(RemoveFirst(ls, l), l) == RemoveFirst(ls, l)
  {
    assert multiset(RemoveFirst(ls, l))[l] == 0;
  }

  /** A listener registered twice loses both registrations when one
      unsubscribe is called twice: the removal is by identity, not by
      registration. */
  lemma UnsubscribeTwiceTwice(l: ListenerId)
    ensures RemoveFirst([l, l], l) == [l]
    ensures RemoveFirst(RemoveFirst([l, l], l), l) == []
  {
    assert multiset(RemoveFirst([l], l))[l] == 0;
  }
}

=== FILE: js_values.dfy ===
/** The JavaScript values the feature store and its helpers handle, with the
    few language primitives they rely on: `typeof`, truthiness (`!!v`) and
    the string form `v + ''`. */
module JsValues {

  /** A JavaScript value. Objects and arrays are trees of values (no sharing,
      no cycles); numbers are integers; a function is known only by an
      identity, since the code here never looks inside one. */
  datatype Value =
    | Undefined
    | Null
    | Bool(b: bool)
    | Num(n: int)
    | Str(s: string)
    | Arr(items: seq<Value>)
    | Obj(fields: map<string, Value>)
    | Func(id: nat)

  /** The `typeof` operator. */
  function TypeOf(v: Value): string {
    match v
    case Undefined => "undefined"
    case Null => "object"
    case Bool(_) => "boolean"
    case Num(_) => "number"
    case Str(_) => "string"
    case Arr(_) => "object"
    case Obj(_) => "object"
    case Func(_) => "function"
  }

  /** ToBoolean: what `if (v)`, `!v` and `!!v` test. */
  predicate Truthy(v: Value) {
    match v
    case Undefined => false
    case Null => false
    case Bool(b) => b
    case Num(n) => n != 0
    case Str(s) => s != ""
    case _ => true
  }

  predicate IsDigit(c: char) {
    '0' <= c <= '9'
  }

  /** Decimal digits of a natural number, most significant first. */
  function NatToString(n: nat): (r: string)
    ensures |r| > 0
    ensures forall i | 0 <= i < |r| :: IsDigit(r[i])
  {
    var d := "0123456789"[n % 10];
    if n < 10 then [d] else NatToString(n / 10) + [d]
  }

  /** The string form of an integer number. */
  function IntToString(n: int): (r: string)
    ensures forall i | 0 <= i < |r| :: IsDigit(r[i]) || r[i] == '-'
  {
    if n < 0 then "-" + NatToString(-n) else NatToString(n)
  }

  /** `parts.join(sep)`. */
  function Join(parts: seq<string>, sep: string): string {
    if |parts| == 0 then ""
    else if |parts| == 1 then parts[0]
    else parts[0] + sep + Join(parts[1..], sep)
  }

  /** The string form `v + ''`. Arrays join their elements with commas,
      writing `null` and `undefined` elements as empty strings; a function's
      source text is represented by a placeholder word. */
  function StringForm(v: Value): string {
    match v
    case Undefined => "undefined"
    case Null => "null"
    case Bool(b) => if b then "true" else "false"
    case Num(n) => IntToString(n)
    case Str(s) => s
    case Arr(items) =>
      Join(seq(|items|, i requires 0 <= i < |items| =>
                 if items[i].Undefined? || items[i].Null? then "" else StringForm(items[i])), ",")
    case Obj(_) => "[object Object]"
    case Func(_) => "function"
  }

  function LowerChar(c: char): char {
    if 'A' <= c <= 'Z' then (c as int + 32) as char else c
  }

  /** `s.toLowerCase()` on ASCII letters. */
  function Lower(s: string): (r: string)
    ensures |r| == |s|
    ensures forall i | 0 <= i < |s| :: r[i] == LowerChar(s[i])
  {
    seq(|s|, i requires 0 <= i < |s| => LowerChar(s[i]))
  }
}

=== FILE: strip.dfy ===
/** The non-regex logic of src/feature-switch-strip.js: the `${FEATURE}`
    template, the choice of disabled features, the option merge and gating
    of the five dialect passes in their fixed order, and the reassembly of
    content around the star-comment spans. The regular-expression searches
    themselves are parameters (`Engine`). */
module FeatureSwitchStrip {
  import opened Wrappers
  import opened JsValues
  import Util

  // ---------------------------------------------------------------------
  // The replacement template
  // ---------------------------------------------------------------------

  /** The placeholder a replacement template may contain. */
  const Token: string := "${FEATURE}"

  /** The placeholder occurs in `s` at position `i`. */
  predicate TokenAt(s: string, i: nat) {
    OccursAt(s, Token, i)
  }

  /** `generateReplacementString`: every occurrence of the placeholder,
      scanning left to right, becomes the feature name. */
  function GenerateReplacementString(template: string, feature: string): string
    decreases |template|
  {
    if |template| == 0 then ""
    else if TokenAt(template, 0) then feature + GenerateReplacementString(template[|Token|..], feature)
    else [template[0]] + GenerateReplacementString(template[1..], feature)
  }

  /** A template without the placeholder comes back unchanged. */
  lemma {:induction false} NoTokenUnchanged(template: string, feature: string)
    requires forall i | 0 <= i < |template| :: !TokenAt(template, i)
    ensures GenerateReplacementString(template, feature) == template
    decreases |template|
  {
    if |template| > 0 {
      var rest := template[1..];
      forall i | 0 <= i < |rest|
        ensures !TokenAt(rest, i)
      {
        if i + |Token| <= |rest| {
          assert rest[i..i + |Token|] == template[i + 1..i + 1 + |Token|];
          assert !TokenAt(template, i + 1);
        }
      }
      NoTokenUnchanged(rest, feature);
    }
  }

  /** Substituting the placeholder by itself changes nothing. */
  lemma {:induction false} TokenForTokenUnchanged(template: string)
    ensures GenerateReplacementString(template, Token) == template
    decreases |template|
  {
    if |template| > 0 {
      if TokenAt(template, 0) {
        TokenForTokenUnchanged(template[|Token|..]);
        assert template == Token + template[|Token|..];
      } else {
        TokenForTokenUnchanged(template[1..]);
        assert template == [template[0]] + template[1..];
      }
    }
  }

  /** Text free of '$' before the rest of a template is copied as it is. */
  lemma {:induction false} DollarFreePrefix(a: string, b: string, feature: string)
    requires forall i | 0 <= i < |a| :: a[i] != '$'
    ensures GenerateReplacementString(a + b, feature) == a + GenerateReplacementString(b, feature)
    decreases |a|
  {
    if |a| > 0 {
      var ab := a + b;
      assert ab[0] == a[0];
      assert ab[1..] == a[1..] + b;
      DollarFreePrefix(a[1..], b, feature);
      calc {
        GenerateReplacementString(ab, feature);
        [ab[0]] + GenerateReplacementString(ab[1..], feature);
        [a[0]] + (a[1..] + GenerateReplacementString(b, feature));
        { assert a == [a[0]] + a[1..]; }
        a + GenerateReplacementString(b, feature);
      }
    } else {
      assert a + b == b;
    }
  }

  /** A template starting with the placeholder starts with the feature. */
  lemma TokenFirst(rest: string, feature: string)
    ensures GenerateReplacementString(Token + rest, feature) == feature + GenerateReplacementString(rest, feature)
  {
    assert TokenAt(Token + rest, 0);
    assert (Token + rest)[|Token|..] == rest;
  }

  /** A template with one placeholder between '$'-free text becomes that
      text around the feature name. */
  lemma SinglePlaceholder(head: string, tail: string, feature: string)
    requires forall i | 0 <= i < |head| :: head[i] != '$'
    requires forall i | 0 <= i < |tail| :: tail[i] != '$'
    ensures GenerateReplacementString(head + Token + tail, feature) == head + feature + tail
  {
    assert head + Token + tail == head + (Token + tail);
    DollarFreePrefix(head, Token + tail, feature);
    TokenFirst(tail, feature);
    DollarFreePrefix(tail, "", feature);
    assert tail + "" == tail;
  }

  /** Every placeholder is replaced: '$'-free parts joined by placeholders
      become the same parts joined by the feature name. */
  lemma {:induction false} ManyPlaceholders(parts: seq<string>, feature: string)
    requires forall j, i | 0 <= j < |parts| && 0 <= i < |parts[j]| :: parts[j][i] != '$'
    ensures GenerateReplacementString(Join(parts, Token), feature) == Join(parts, feature)
    decreases |parts|
  {
    if |parts| == 1 {
      DollarFreePrefix(parts[0], "", feature);
      assert parts[0] + "" == parts[0];
    } else if |parts| > 1 {
      var rest := Join(parts[1..], Token);
      assert Join(parts, Token) == parts[0] + (Token + rest);
      DollarFreePrefix(parts[0], Token + rest, feature);
      TokenFirst(rest, feature);
      ManyPlaceholders(parts[1..], feature);
    }
  }

  /** Every default template names the feature it replaced, e.g.
      `/* Feature [name] DISABLED */` for star comments. */
  lemma DefaultTemplateFilled(d: Dialect, feature: string)
    ensures GenerateReplacementString(DefaultTemplate(d), feature) == TemplateOpen(d) + feature + TemplateClose(d)
  {
    SinglePlaceholder(TemplateOpen(d), TemplateClose(d), feature);
  }

  // ---------------------------------------------------------------------
  // Disabled features
  // ---------------------------------------------------------------------

  /** The names of `Object.keys(features)` whose value is falsy, in key
      order; the features object is given as its entries in key order. */
  function DisabledFeatures(entries: seq<(string, Value)>): (r: seq<string>)
    ensures |r| <= |entries|
    ensures forall n | n in r :: exists i | 0 <= i < |entries| :: entries[i].0 == n && !Truthy(entries[i].1)
    ensures forall i | 0 <= i < |entries| && !Truthy(entries[i].1) :: entries[i].0 in r
  {
    if |entries| == 0 then []
    else
      var rest := DisabledFeatures(entries[1..]);
      assert forall i | 1 <= i < |entries| :: entries[i] == entries[1..][i - 1];
      (if Truthy(entries[0].1) then [] else [entries[0].0]) + rest
  }

  /** The selection distributes over concatenated entry lists. */
  lemma {:induction false} DisabledFeaturesAppend(a: seq<(string, Value)>, b: seq<(string, Value)>)
    ensures DisabledFeatures(a + b) == DisabledFeatures(a) + DisabledFeatures(b)
    decreases |a|
  {
    if |a| == 0 {
      assert a + b == b;
    } else {
      assert (a + b)[0] == a[0];
      assert (a + b)[1..] == a[1..] + b;
      DisabledFeaturesAppend(a[1..], b);
    }
  }

  /** An enabled (truthy) feature never adds a pass. */
  lemma EnabledFeatureIgnored(entries: seq<(string, Value)>, name: string, v: Value)
    requires Truthy(v)
    ensures DisabledFeatures(entries + [(name, v)]) == DisabledFeatures(entries)
  {
    DisabledFeaturesAppend(entries, [(name, v)]);
    assert DisabledFeatures([(name, v)]) == [] by {
      assert [(name, v)][1..] == [];
    }
  }

  // ---------------------------------------------------------------------
  // The star-comment splice
  // ---------------------------------------------------------------------

  /** A match: where it starts in the content and how long it is. */
  datatype Span = Span(index: nat, length: nat)

  function End(sp: Span): nat {
    sp.index + sp.length
  }

  /** `s.substring(start, end)` for non-negative arguments: each is clamped
      to the length of `s`, and the two are swapped when out of order. */
  function Substring(s: string, start: nat, end: nat): (r: string)
    ensures start <= end <= |s| ==> r == s[start..end]
    ensures end <= start <= |s| ==> r == s[end..start]
    ensures |r| <= |s|
  {
    var a := if start < |s| then start else |s|;
    var b := if end < |s| then end else |s|;
    if a <= b then s[a..b] else s[b..a]
  }

  /** The `forEach` over the kept spans followed by `join('')`: the text
      from `prev` up to each span, the replacement in place of the span,
      and the rest of the content after the last span. */
  function SpliceFrom(content: string, spans: seq<Span>, prev: nat, rep: string): string
    decreases |spans|
  {
    if |spans| == 0 then Substring(content, prev, |content|)
    else Substring(content, prev, spans[0].index) + rep + SpliceFrom(content, spans[1..], End(spans[0]), rep)
  }

  function Splice(content: string, spans: seq<Span>, rep: string): string {
    SpliceFrom(content, spans, 0, rep)
  }

  /** The assembly loop of `stripStarComments`, with `contentParts` kept
      already joined. */
  method AssembleStar(content: string, spans: seq<Span>, rep: string) returns (r: string)
    ensures r == Splice(content, spans, rep)
  {
    var previous: nat := 0;
    var i := 0;
    r := "";
    while i < |spans|
      invariant 0 <= i <= |spans|
      invariant r + SpliceFrom(content, spans[i..], previous, rep) == Splice(content, spans, rep)
    {
      var part := Substring(content, previous, spans[i].index) + rep;
      assert spans[i..][1..] == spans[i + 1..];
      assert SpliceFrom(content, spans[i..], previous, rep) ==
             part + SpliceFrom(content, spans[i + 1..], End(spans[i]), rep);
      r := r + part;
      previous := End(spans[i]);
      i := i + 1;
    }
    assert spans[i..] == [];
    r := r + Substring(content, previous, |content|);
  }

  /** Spans in ascending order, not overlapping, starting at or after
      `from` and ending inside a content of length `limit`. */
  predicate Ordered(spans: seq<Span>, from: nat, limit: nat)
    decreases |spans|
  {
    |spans| == 0 ||
    (from <= spans[0].index && End(spans[0]) <= limit && Ordered(spans[1..], End(spans[0]), limit))
  }

  lemma {:induction false} OrderedFromEarlier(spans: seq<Span>, from: nat, earlier: nat, limit: nat)
    requires Ordered(spans, from, limit) && earlier <= from
    ensures Ordered(spans, earlier, limit)
  {
  }

  /** The text outside the spans, in order: before the first, between
      neighbours, and after the last. */
  function Gaps(content: string, spans: seq<Span>, prev: nat): (r: seq<string>)
    requires prev <= |content| && Ordered(spans, prev, |content|)
    ensures |r| == |spans| + 1
    decreases |spans|
  {
    if |spans| == 0 then [content[prev..]]
    else [content[prev..spans[0].index]] + Gaps(content, spans[1..], End(spans[0]))
  }

  /** For ordered spans, the splice is the text outside the spans joined
      by the replacement string. */
  lemma {:induction false} SpliceIsJoinedGaps(content: string, spans: seq<Span>, prev: nat, rep: string)
    requires prev <= |content| && Ordered(spans, prev, |content|)
    ensures SpliceFrom(content, spans, prev, rep) == Join(Gaps(content, spans, prev), rep)
    decreases |spans|
  {
    if |spans| > 0 {
      SpliceIsJoinedGaps(content, spans[1..], End(spans[0]), rep);
      var g := Gaps(content, spans, prev);
      assert g[1..] == Gaps(content, spans[1..], End(spans[0]));
    }
  }

  /** With no spans the splice returns the content. */
  lemma SpliceWithoutSpans(content: string, rep: string)
    ensures Splice(content, [], rep) == content
  {
    assert content[0..|content|] == content;
  }

  /** When every ordered span already reads as the replacement, the splice
      gives the content back. */
  lemma {:induction false} SpliceOfReplacementsUnchanged(content: string, spans: seq<Span>, prev: nat, rep: string)
    requires prev <= |content| && Ordered(spans, prev, |content|)
    requires forall i | 0 <= i < |spans| :: SpanText(content, spans[i]) == rep
    ensures SpliceFrom(content, spans, prev, rep) == content[prev..]
    decreases |spans|
  {
    if |spans| > 0 {
      var sp := spans[0];
      assert content[sp.index..End(sp)] == rep by { assert SpanText(content, spans[0]) == rep; }
      assert forall i | 0 <= i < |spans[1..]| :: spans[1..][i] == spans[i + 1];
      SpliceOfReplacementsUnchanged(content, spans[1..], End(sp), rep);
      assert content[prev..] == content[prev..sp.index] + content[sp.index..];
      assert content[sp.index..] == content[sp.index..End(sp)] + content[End(sp)..];
    }
  }

  /** Total length of the spans. */
  function Covered(spans: seq<Span>): nat {
    if |spans| == 0 then 0 else spans[0].length + Covered(spans[1..])
  }

  /** Each ordered span of total length `Covered` gives way to one copy of
      the replacement. */
  lemma {:induction false} SpliceLength(content: string, spans: seq<Span>, prev: nat, rep: string)
    requires prev <= |content| && Ordered(spans, prev, |content|)
    ensures |SpliceFrom(content, spans, prev, rep)| == |content| - prev - Covered(spans) + |spans| * |rep|
    decreases |spans|
  {
    if |spans| > 0 {
      var sp := spans[0];
      SpliceLength(content, spans[1..], End(sp), rep);
      assert |Substring(content, prev, sp.index)| == sp.index - prev;
      assert (|spans| - 1) * |rep| + |rep| == |spans| * |rep|;
    }
  }

  // ---------------------------------------------------------------------
  // The star-comment pass
  // ---------------------------------------------------------------------

  /** `FEATURE.start(name)` and `FEATURE.end(name)`, as matched literally. */
  function StartMarker(feature: string): string {
    "FEATURE.start(" + feature + ")"
  }

  function EndMarker(feature: string): string {
    "FEATURE.end(" + feature + ")"
  }

  /** `t` occurs in `s` at position `i`. */
  predicate OccursAt(s: string, t: string, i: nat) {
    i + |t| <= |s| && s[i..i + |t|] == t
  }

  predicate Contains(s: string, t: string) {
    exists i: nat | i <= |s| :: OccursAt(s, t, i)
  }

  function SpanText(content: string, sp: Span): string {
    Substring(content, sp.index, End(sp))
  }

  /** A candidate belongs to `feature` when its text holds both markers. */
  predicate Marks(content: string, sp: Span, feature: string) {
    Contains(SpanText(content, sp), StartMarker(feature)) && Contains(SpanText(content, sp), EndMarker(feature))
  }

  /** The candidates kept for `feature`, in their original order. */
  function SelectSpans(content: string, candidates: seq<Span>, feature: string): (r: seq<Span>)
    ensures |r| <= |candidates|
    ensures forall sp | sp in r :: sp in candidates && Marks(content, sp, feature)
    ensures forall sp | sp in candidates && Marks(content, sp, feature) :: sp in r
  {
    if |candidates| == 0 then []
    else
      var rest := SelectSpans(content, candidates[1..], feature);
      assert forall sp | sp in candidates :: sp == candidates[0] || sp in candidates[1..];
      (if Marks(content, candidates[0], feature) then [candidates[0]] else []) + rest
  }

  /** Dropping candidates keeps the remaining ones ordered. */
  lemma {:induction false} SelectKeepsOrder(content: string, candidates: seq<Span>, feature: string, from: nat)
    requires Ordered(candidates, from, |content|)
    ensures Ordered(SelectSpans(content, candidates, feature), from, |content|)
    decreases |candidates|
  {
    if |candidates| > 0 {
      var c0 := candidates[0];
      SelectKeepsOrder(content, candidates[1..], feature, End(c0));
      var rest := SelectSpans(content, candidates[1..], feature);
      if Marks(content, c0, feature) {
        assert ([c0] + rest)[1..] == rest;
      } else {
        assert from <= c0.index;
        OrderedFromEarlier(rest, End(c0), from, |content|);
        assert SelectSpans(content, candidates, feature) == rest;
      }
    }
  }

  /** The regular-expression searches the passes run, which this model
      does not interpret. Each of the four replace passes maps (content,
      feature, replacement) to the content with every match replaced; the
      star pass's search yields the matches of its comment-pair pattern. */
  type RegexPass = (string, string, string) -> string

  datatype Engine = Engine(
    htmlComments: RegexPass,
    htmlElements: RegexPass,
    htmlAttributes: RegexPass,
    slashComments: RegexPass,
    starCandidates: string -> seq<Span>)

  /** A global regular-expression search yields ascending,
      non-overlapping matches inside the content. */
  ghost predicate SearchIsOrdered(eng: Engine) {
    forall content: string :: Ordered(eng.starCandidates(content), 0, |content|)
  }

  /** `stripStarComments(content, feature, replace)` after the template has
      been filled in. */
  function StarPass(content: string, feature: string, rep: string, eng: Engine): string {
    Splice(content, SelectSpans(content, eng.starCandidates(content), feature), rep)
  }

  /** When no candidate carries both markers for the feature, the star
      pass returns the content unchanged. */
  lemma StarPassWithoutMarkers(content: string, feature: string, rep: string, eng: Engine)
    requires forall sp | sp in eng.starCandidates(content) :: !Marks(content, sp, feature)
    ensures StarPass(content, feature, rep, eng) == content
  {
    var kept := SelectSpans(content, eng.starCandidates(content), feature);
    NoMembersEmpty(kept);
    SpliceWithoutSpans(content, rep);
  }

  /** For an ordered search, the star pass keeps exactly the text outside
      the marked candidates, joined by the replacement. */
  lemma StarPassKeepsOutside(content: string, feature: string, rep: string, eng: Engine)
    requires SearchIsOrdered(eng)
    ensures var kept := SelectSpans(content, eng.starCandidates(content), feature);
      Ordered(kept, 0, |content|) &&
      StarPass(content, feature, rep, eng) == Join(Gaps(content, kept, 0), rep)
  {
    var kept := SelectSpans(content, eng.starCandidates(content), feature);
    SelectKeepsOrder(content, eng.starCandidates(content), feature, 0);
    SpliceIsJoinedGaps(content, kept, 0, rep);
  }

  // ---------------------------------------------------------------------
  // Options
  // ---------------------------------------------------------------------

  datatype Dialect = HtmlComments | HtmlElements | HtmlAttributes | StarComments | SlashComments

  /** The order in which `strip` runs the passes for each feature. */
  const PassOrder: seq<Dialect> := [HtmlComments, HtmlElements, HtmlAttributes, StarComments, SlashComments]

  /** The option key of a dialect. */
  function DialectKey(d: Dialect): string {
    match d
    case HtmlComments => "htmlComments"
    case HtmlElements => "htmlElements"
    case HtmlAttributes => "htmlAttributes"
    case StarComments => "starComments"
    case SlashComments => "slashComments"
  }

  /** The default template of a dialect: the text before and after its
      one placeholder. */
  function DefaultTemplate(d: Dialect): string {
    TemplateOpen(d) + Token + TemplateClose(d)
  }

  function TemplateOpen(d: Dialect): string {
    match d
    case StarComments => "/* Feature ["
    case SlashComments => "// Feature ["
    case _ => "<!-- Feature ["
  }

  function TemplateClose(d: Dialect): string {
    match d
    case StarComments => "] DISABLED */"
    case SlashComments => "] DISABLED //"
    case _ => "] DISABLED -->"
  }

  function DialectDefaults(d: Dialect): Value {
    Obj(map["enabled" := Bool(true), "replace" := Str(DefaultTemplate(d))])
  }

  /** `defaultOptions`: every dialect enabled with its template. */
  const DefaultOptions: Value := Obj(map[
    "starComments" := DialectDefaults(StarComments),
    "slashComments" := DialectDefaults(SlashComments),
    "htmlComments" := DialectDefaults(HtmlComments),
    "htmlElements" := DialectDefaults(HtmlElements),
    "htmlAttributes" := DialectDefaults(HtmlAttributes)])

  /** `mergeDeep({}, defaultOptions, options)`. */
  function MergedOptions(options: Value): (r: Value)
    ensures r.Obj?
  {
    Util.MergeDeep(Obj(map[]), [DefaultOptions, options])
  }

  /** The property read `v[k]`: `None` when `v` is `null` or `undefined`
      (a TypeError), `undefined` for a key `v` does not have. */
  function Prop(v: Value, k: string): (r: Option<Value>)
    ensures r.None? <==> Util.IsNil(v)
    ensures v.Obj? ==> r == Some(if k in v.fields then v.fields[k] else Undefined)
  {
    if Util.IsNil(v) then None
    else if k in Util.ForInEntries(v) then Some(Util.ForInEntries(v)[k])
    else Some(Undefined)
  }

  // ---------------------------------------------------------------------
  // The driver
  // ---------------------------------------------------------------------

  /** A dialect's `replace` entry, when it is a string. */
  function Template(dopt: Value): (r: Option<string>)
    ensures r.Some? <==> Prop(dopt, "replace").Some? && Prop(dopt, "replace").value.Str?
  {
    match Prop(dopt, "replace")
    case Some(Str(t)) => Some(t)
    case _ => None
  }

  /** Apply one dialect's pass with a filled-in replacement string. */
  function ApplyDialect(d: Dialect, content: string, feature: string, rep: string, eng: Engine): string {
    match d
    case HtmlComments => eng.htmlComments(content, feature, rep)
    case HtmlElements => eng.htmlElements(content, feature, rep)
    case HtmlAttributes => eng.htmlAttributes(content, feature, rep)
    case StarComments => StarPass(content, feature, rep, eng)
    case SlashComments => eng.slashComments(content, feature, rep)
  }

  /** True when the options switch dialect `d` off without error: its
      option object is present and its `enabled` is falsy. */
  predicate DialectOff(options: Value, d: Dialect) {
    var dopt := Prop(options, DialectKey(d));
    dopt.Some? && Prop(dopt.value, "enabled").Some? && !Truthy(Prop(dopt.value, "enabled").value)
  }

  /** One step of the loop body of `strip`: `if (!!options.<d>.enabled)`
      run the pass with `options.<d>.replace` as template. `None` is a
      TypeError: the dialect's options are `null` or `undefined`, or an
      enabled dialect's template is not a string. */
  function RunPass(d: Dialect, content: string, feature: string, options: Value, eng: Engine): (r: Option<string>)
    ensures DialectOff(options, d) ==> r == Some(content)
    ensures Prop(options, DialectKey(d)).Some? && Util.IsNil(Prop(options, DialectKey(d)).value) ==> r.None?
    ensures r.Some? && !DialectOff(options, d) ==>
              Prop(options, DialectKey(d)).Some? &&
              Template(Prop(options, DialectKey(d)).value).Some? &&
              r.value == ApplyDialect(d, content, feature,
                           GenerateReplacementString(Template(Prop(options, DialectKey(d)).value).value, feature), eng)
  {
    match Prop(options, DialectKey(d))
    case None => None
    case Some(dopt) =>
      match Prop(dopt, "enabled")
      case None => None
      case Some(enabled) =>
        if !Truthy(enabled) then Some(content)
        else
          match Prop(dopt, "replace")
          case Some(Str(t)) => Some(ApplyDialect(d, content, feature, GenerateReplacementString(t, feature), eng))
          case _ => None
  }

  /** The passes of `ds` in order, each on the previous one's output;
      the first error stops the run. */
  function RunPasses(ds: seq<Dialect>, content: string, feature: string, options: Value, eng: Engine): Option<string>
    decreases |ds|
  {
    if |ds| == 0 then Some(content)
    else
      match RunPass(ds[0], content, feature, options, eng)
      case None => None
      case Some(next) => RunPasses(ds[1..], next, feature, options, eng)
  }

  /** All five passes for one disabled feature. */
  function StripFeature(content: string, feature: string, options: Value, eng: Engine): Option<string> {
    RunPasses(PassOrder, content, feature, options, eng)
  }

  /** The `forEach` over the disabled features. */
  function StripAll(content: string, features: seq<string>, options: Value, eng: Engine): Option<string>
    decreases |features|
  {
    if |features| == 0 then Some(content)
    else
      match StripFeature(content, features[0], options, eng)
      case None => None
      case Some(next) => StripAll(next, features[1..], options, eng)
  }

  /** `strip(content, features, options)`. */
  function Strip(content: string, entries: seq<(string, Value)>, options: Value, eng: Engine): Option<string> {
    StripAll(content, DisabledFeatures(entries), MergedOptions(options), eng)
  }

  // ---------------------------------------------------------------------
  // Driver properties
  // ---------------------------------------------------------------------

  /** Stripping a list of features is stripping the first part, then the
      second part on the result. */
  lemma {:induction false} StripAllAppend(content: string, a: seq<string>, b: seq<string>, options: Value, eng: Engine)
    ensures StripAll(content, a + b, options, eng) ==
              (match StripAll(content, a, options, eng)
               case None => None
               case Some(mid) => StripAll(mid, b, options, eng))
    decreases |a|
  {
    if |a| == 0 {
      assert a + b == b;
    } else {
      assert (a + b)[0] == a[0];
      assert (a + b)[1..] == a[1..] + b;
      match StripFeature(content, a[0], options, eng)
      case None =>
      case Some(next) => StripAllAppend(next, a[1..], b, options, eng);
    }
  }

  /** A sequence with no members is empty. */
  lemma NoMembersEmpty<T>(s: seq<T>)
    ensures (forall x | x in s :: false) ==> s == []
  {
    if |s| > 0 {
      assert s[0] in s;
    }
  }

  /** Passes whose dialects are all switched off leave the content alone. */
  lemma {:induction false} PassesOff(ds: seq<Dialect>, content: string, feature: string, options: Value, eng: Engine)
    requires forall i | 0 <= i < |ds| :: DialectOff(options, ds[i])
    ensures RunPasses(ds, content, feature, options, eng) == Some(content)
    decreases |ds|
  {
    if |ds| > 0 {
      PassesOff(ds[1..], content, feature, options, eng);
    }
  }

  /** With every dialect switched off, stripping any features returns the
      content unchanged. */
  lemma {:induction false} AllDialectsOff(content: string, features: seq<string>, options: Value, eng: Engine)
    requires forall d: Dialect :: DialectOff(options, d)
    ensures StripAll(content, features, options, eng) == Some(content)
    decreases |features|
  {
    if |features| > 0 {
      PassesOff(PassOrder, content, features[0], options, eng);
      AllDialectsOff(content, features[1..], options, eng);
    }
  }

  /** Features that are all enabled trigger no pass at all, whatever the
      options. */
  lemma EnabledFeaturesNeverStrip(content: string, entries: seq<(string, Value)>, options: Value, eng: Engine)
    requires forall i | 0 <= i < |entries| :: Truthy(entries[i].1)
    ensures Strip(content, entries, options, eng) == Some(content)
  {
    NoMembersEmpty(DisabledFeatures(entries));
  }

  /** `mergeDeep` into `{}` copies a tree of plain objects. */
  predicate PlainTree(v: Value) {
    v.Obj? && forall k | k in v.fields :: !v.fields[k].Arr? && (v.fields[k].Obj? ==> PlainTree(v.fields[k]))
  }

  lemma {:induction false} MergeIntoEmptyCopies(v: Value)
    requires PlainTree(v)
    ensures Util.MergeInto(Obj(map[]), v) == v
  {
    var r := Util.MergeInto(Obj(map[]), v);
    forall k | k in v.fields
      ensures r.fields[k] == v.fields[k]
    {
      if Util.IsObject(v.fields[k]) {
        MergeIntoEmptyCopies(v.fields[k]);
      }
    }
    assert r.fields == v.fields;
  }

  /** Merging into `{}` copies the defaults, so the merged options are the
      defaults with the caller's options merged in. */
  lemma MergedOverDefaults(options: Value)
    ensures MergedOptions(options) == Util.MergeInto(DefaultOptions, options)
  {
    DefaultsArePlain();
    MergeIntoEmptyCopies(DefaultOptions);
    var sources := [DefaultOptions, options];
    assert sources[1..] == [options];
    assert [options][1..] == [];
    calc {
      MergedOptions(options);
      Util.MergeDeep(Obj(map[]), sources);
      Util.MergeDeep(Util.MergeInto(Obj(map[]), DefaultOptions), [options]);
      Util.MergeDeep(DefaultOptions, [options]);
      Util.MergeDeep(Util.MergeInto(DefaultOptions, options), []);
    }
  }

  lemma DefaultsArePlain()
    ensures PlainTree(DefaultOptions)
  {
    forall d: Dialect ensures PlainTree(DialectDefaults(d)) {
    }
  }

  /** With no options object (`undefined`, `null`, a number), the merged
      options are the defaults. */
  lemma NoOptionsMeansDefaults(options: Value)
    requires !Util.IsObject(options)
    ensures MergedOptions(options) == DefaultOptions
  {
    MergedOverDefaults(options);
  }

  /** Each dialect's entry of the defaults. */
  lemma DefaultsEntry(d: Dialect)
    ensures DialectKey(d) in DefaultOptions.fields
    ensures DefaultOptions.fields[DialectKey(d)] == DialectDefaults(d)
  {
  }

  /** An options object that sets `<d>.enabled` to a non-object value
      overrides the default for that dialect only in that entry. */
  lemma MergedEnabled(options: Value, d: Dialect)
    requires options.Obj? && DialectKey(d) in options.fields
    requires options.fields[DialectKey(d)].Obj? && "enabled" in options.fields[DialectKey(d)].fields
    requires !Util.IsObject(options.fields[DialectKey(d)].fields["enabled"])
    ensures var dopt := Prop(MergedOptions(options), DialectKey(d));
      dopt.Some? && dopt.value.Obj? &&
      Prop(dopt.value, "enabled") == Some(options.fields[DialectKey(d)].fields["enabled"])
  {
    var key := DialectKey(d);
    var src := options.fields[key];
    MergedOverDefaults(options);
    DefaultsEntry(d);
    assert Util.ForInEntries(options) == options.fields;
    assert Util.NestedBase(DefaultOptions.fields, key) == DialectDefaults(d);
    Util.MergeIntoNestedKey(DefaultOptions, options, key);
    var inner := Util.MergeInto(DialectDefaults(d), src);
    assert Util.MergeInto(DefaultOptions, options).fields[key] == inner;
    assert Util.ForInEntries(src) == src.fields;
    assert Util.Mentions(src, "enabled");
    assert inner.fields["enabled"] == src.fields["enabled"];
  }

  /** The caller's options switch dialect `d` off: its entry is an object
      whose `enabled` is a falsy value other than an object. */
  predicate SwitchesOff(options: Value, d: Dialect) {
    && options.Obj?
    && DialectKey(d) in options.fields
    && options.fields[DialectKey(d)].Obj?
    && "enabled" in options.fields[DialectKey(d)].fields
    && !Util.IsObject(options.fields[DialectKey(d)].fields["enabled"])
    && !Truthy(options.fields[DialectKey(d)].fields["enabled"])
  }

  /** `strip(content, features, options)` with every dialect's `enabled`
      falsy returns the content unchanged, whatever the features. */
  lemma AllOffOptionsKeepContent(content: string, entries: seq<(string, Value)>, options: Value, eng: Engine)
    requires forall d: Dialect :: SwitchesOff(options, d)
    ensures Strip(content, entries, options, eng) == Some(content)
  {
    forall d: Dialect
      ensures DialectOff(MergedOptions(options), d)
    {
      assert SwitchesOff(options, d);
      MergedEnabled(options, d);
    }
    AllDialectsOff(content, DisabledFeatures(entries), MergedOptions(options), eng);
  }

  /** The options of the "all dialects off" case: each dialect given
      `{enabled: false}`. */
  const AllOffOptions: Value := Obj(map[
    "starComments" := Obj(map["enabled" := Bool(false)]),
    "slashComments" := Obj(map["enabled" := Bool(false)]),
    "htmlComments" := Obj(map["enabled" := Bool(false)]),
    "htmlElements" := Obj(map["enabled" := Bool(false)]),
    "htmlAttributes" := Obj(map["enabled" := Bool(false)])])

  /** `{<each dialect>: {enabled: false}}` switches every dialect off. */
  lemma AllOffOptionsSwitchOff()
    ensures forall d: Dialect :: SwitchesOff(AllOffOptions, d)
  {
    forall d: Dialect
      ensures SwitchesOff(AllOffOptions, d)
    {
      assert DialectKey(d) in AllOffOptions.fields;
    }
  }

  /** The reference fold: every dialect of `ds` applied in order with its
      default template. */
  function DefaultRun(ds: seq<Dialect>, content: string, feature: string, eng: Engine): string
    decreases |ds|
  {
    if |ds| == 0 then content
    else DefaultRun(ds[1..], ApplyDialect(ds[0], content, feature,
                                           GenerateReplacementString(DefaultTemplate(ds[0]), feature), eng),
                    feature, eng)
  }

  /** Under the defaults each dialect is enabled with its own template. */
  lemma DefaultPass(d: Dialect, content: string, feature: string, eng: Engine)
    ensures RunPass(d, content, feature, DefaultOptions, eng) ==
              Some(ApplyDialect(d, content, feature, GenerateReplacementString(DefaultTemplate(d), feature), eng))
  {
    DefaultsEntry(d);
    var dopt := DialectDefaults(d);
    assert Prop(DefaultOptions, DialectKey(d)) == Some(dopt);
    assert Prop(dopt, "enabled") == Some(Bool(true));
    assert Prop(dopt, "replace") == Some(Str(DefaultTemplate(d)));
  }

  lemma {:induction false} DefaultPasses(ds: seq<Dialect>, content: string, feature: string, eng: Engine)
    ensures RunPasses(ds, content, feature, DefaultOptions, eng) == Some(DefaultRun(ds, content, feature, eng))
    decreases |ds|
  {
    if |ds| > 0 {
      DefaultPass(ds[0], content, feature, eng);
      DefaultPasses(ds[1..], ApplyDialect(ds[0], content, feature,
                                          GenerateReplacementString(DefaultTemplate(ds[0]), feature), eng),
                    feature, eng);
    }
  }

  /** Without options every dialect runs, in the fixed order, each with its
      default template and each on the previous pass's output. */
  lemma DefaultsRunEveryPass(content: string, feature: string, eng: Engine)
    ensures StripFeature(content, feature, MergedOptions(Undefined), eng) ==
              Some(DefaultRun(PassOrder, content, feature, eng))
  {
    NoOptionsMeansDefaults(Undefined);
    DefaultPasses(PassOrder, content, feature, eng);
  }
}

=== FILE: util.dfy ===
/** The value predicates of src/util.js and its recursive option merge. */
module Util {
  import opened JsValues

  // ---------------------------------------------------------------------
  // Value predicates
  // ---------------------------------------------------------------------

  /** `isTrue`: boolean `true`, or any value whose lower-cased string form is "true". */
  predicate IsTrue(v: Value) {
    v == Bool(true) || Lower(StringForm(v)) == "true"
  }

  /** `isFalse`: boolean `false`, or any value whose lower-cased string form is "false". */
  predicate IsFalse(v: Value) {
    v == Bool(false) || Lower(StringForm(v)) == "false"
  }

  predicate IsBoolean(v: Value) {
    IsTrue(v) || IsFalse(v)
  }

  predicate IsUndefined(v: Value) {
    v == Undefined
  }

  predicate IsNull(v: Value) {
    v == Null
  }

  predicate IsNil(v: Value) {
    IsUndefined(v) || IsNull(v)
  }

  predicate IsDefined(v: Value) {
    !IsNil(v)
  }

  predicate IsArray(v: Value) {
    v.Arr?
  }

  /** `isObject`: a defined value whose `typeof` is "object" (arrays included). */
  predicate IsObject(v: Value) {
    IsDefined(v) && TypeOf(v) == "object"
  }

  predicate IsObjectStrict(v: Value) {
    IsObject(v) && !IsArray(v)
  }

  predicate IsFunction(v: Value) {
    TypeOf(v) == "function"
  }

  /** The spellings of "true" in any mix of upper and lower case. */
  predicate TrueSpelling(s: string) {
    |s| == 4 && s[0] in "tT" && s[1] in "rR" && s[2] in "uU" && s[3] in "eE"
  }

  /** The spellings of "false" in any mix of upper and lower case. */
  predicate FalseSpelling(s: string) {
    |s| == 5 && s[0] in "fF" && s[1] in "aA" && s[2] in "lL" && s[3] in "sS" && s[4] in "eE"
  }

  lemma LowerIsTrueSpelling(s: string)
    ensures Lower(s) == "true" <==> TrueSpelling(s)
  {
    if TrueSpelling(s) {
      assert Lower(s) == "true";
    }
  }

  lemma LowerIsFalseSpelling(s: string)
    ensures Lower(s) == "false" <==> FalseSpelling(s)
  {
    if FalseSpelling(s) {
      assert Lower(s) == "false";
    }
  }

  /** The string form of a number starts with a digit or a minus sign, never a letter. */
  lemma NumberIsNeitherWord(n: int)
    ensures Lower(IntToString(n)) != "true" && Lower(IntToString(n)) != "false"
  {
    var r := IntToString(n);
    if |r| > 0 {
      assert Lower(r)[0] == r[0];
    } else {
      assert Lower(r) == "";
    }
  }

  /** `isTrue` on every value other than an array: only `true` and the
      case-insensitive string "true" qualify; numbers, `null`, `undefined`,
      objects and functions never do. */
  lemma IsTrueOnNonArrays(v: Value)
    requires !v.Arr?
    ensures IsTrue(v) <==> v == Bool(true) || (v.Str? && TrueSpelling(v.s))
  {
    match v
    case Str(s) => LowerIsTrueSpelling(s);
    case Num(n) => NumberIsNeitherWord(n);
    case Null => assert Lower("null")[0] == 'n';
    case _ =>
  }

  /** `isFalse` on every value other than an array: only `false` and the
      case-insensitive string "false" qualify. */
  lemma IsFalseOnNonArrays(v: Value)
    requires !v.Arr?
    ensures IsFalse(v) <==> v == Bool(false) || (v.Str? && FalseSpelling(v.s))
  {
    match v
    case Str(s) => LowerIsFalseSpelling(s);
    case Num(n) => NumberIsNeitherWord(n);
    case _ =>
  }

  /** No value is both true and false, and `isBoolean` accepts exactly the
      values one of them accepts (so 'TRUE' and 'FALSE' count as booleans). */
  lemma TrueFalseExclusive(v: Value)
    ensures !(IsTrue(v) && IsFalse(v))
    ensures IsBoolean(v) <==> IsTrue(v) || IsFalse(v)
    ensures IsBoolean(Str("TRUE")) && IsBoolean(Str("FALSE"))
    ensures !IsBoolean(Num(123)) && !IsBoolean(Obj(map[]))
  {
    assert IsTrue(Str("TRUE")) by { LowerIsTrueSpelling("TRUE"); }
    assert IsFalse(Str("FALSE")) by { LowerIsFalseSpelling("FALSE"); }
    assert !IsBoolean(Num(123)) by { NumberIsNeitherWord(123); }
  }

  /** The string coercion reaches inside arrays: `['true']` counts as true. */
  lemma ArrayOfTrueIsTrue()
    ensures IsTrue(Arr([Str("true")]))
    ensures !IsTrue(Arr([Str("true"), Str("x")]))
  {
    assert StringForm(Arr([Str("true")])) == "true";
    var items := [Str("true"), Str("x")];
    var parts := seq(|items|, i requires 0 <= i < |items| =>
                       if items[i].Undefined? || items[i].Null? then "" else StringForm(items[i]));
    assert parts == ["true", "x"];
    assert Join(parts, ",") == "true,x";
  }

  /** `isDefined` rejects exactly `null` and `undefined`. */
  lemma DefinedIffNotNullish(v: Value)
    ensures IsDefined(v) <==> v != Null && v != Undefined
  {
  }

  /** `isObjectStrict` holds exactly for plain objects: not `null`, not an
      array, not a function, not a primitive. */
  lemma ObjectStrictIsPlainObject(v: Value)
    ensures IsObjectStrict(v) <==> v.Obj?
    ensures IsObject(v) <==> v.Obj? || v.Arr?
  {
  }

  // ---------------------------------------------------------------------
  // mergeDeep
  // ---------------------------------------------------------------------

  /** The keys a `for (const key in v)` loop visits, with their values: an
      object's own keys, or an array's indices written in decimal. */
  function ForInEntries(v: Value): (r: map<string, Value>)
    ensures forall k | k in r :: r[k] < v
  {
    match v
    case Obj(f) => f
    case Arr(items) => ArrayEntries(items)
    case _ => map[]
  }

  function ArrayEntries(items: seq<Value>): (r: map<string, Value>)
    ensures forall k | k in r :: r[k] in items
  {
    if |items| == 0 then map[]
    else ArrayEntries(items[..|items| - 1])[NatToString(|items| - 1) := items[|items| - 1]]
  }

  /** True when merging `source` writes to key `k` of the target. */
  predicate Mentions(source: Value, k: string) {
    IsObject(source) && k in ForInEntries(source)
  }

  /** The value a nested merge starts from: the target's own value, or a
      fresh `{}` when the target's value is falsy or missing. */
  function NestedBase(fields: map<string, Value>, k: string): Value {
    if k in fields && Truthy(fields[k]) then fields[k] else Obj(map[])
  }

  /** One source of `mergeDeep`: every key of `source` is written into
      `target`; an object-valued key merges recursively into the target's
      value for that key, any other value replaces it. */
  function MergeInto(target: Value, source: Value): (r: Value)
    decreases source
    ensures target.Obj? ==> r.Obj?
    ensures !target.Obj? || !IsObject(source) ==> r == target
    ensures target.Obj? && IsObject(source) ==>
              r.fields.Keys == target.fields.Keys + ForInEntries(source).Keys
    ensures target.Obj? ==>
              forall k | k in target.fields && !Mentions(source, k) ::
                k in r.fields && r.fields[k] == target.fields[k]
    ensures target.Obj? ==>
              forall k | Mentions(source, k) && !IsObject(ForInEntries(source)[k]) ::
                k in r.fields && r.fields[k] == ForInEntries(source)[k]
  {
    if target.Obj? && IsObject(source) then
      var entries := ForInEntries(source);
      Obj(map k | k in target.fields.Keys + entries.Keys ::
            if k in entries then
              (if IsObject(entries[k]) then MergeInto(NestedBase(target.fields, k), entries[k])
               else entries[k])
            else target.fields[k])
    else
      target
  }

  /** The value an object-valued source key leaves in the result: the
      nested merge into the target's value (or a fresh `{}`). */
  lemma MergeIntoNestedKey(target: Value, source: Value, k: string)
    requires target.Obj? && Mentions(source, k) && IsObject(ForInEntries(source)[k])
    ensures var r := MergeInto(target, source);
            k in r.fields && r.fields[k] == MergeInto(NestedBase(target.fields, k), ForInEntries(source)[k])
  {
  }

  /** `mergeDeep(target, ...sources)`: the sources are merged in from left
      to right, so later sources take precedence. */
  function MergeDeep(target: Value, sources: seq<Value>): (r: Value)
    ensures |sources| == 0 ==> r == target
    ensures target.Obj? ==> r.Obj?
    decreases |sources|
  {
    if |sources| == 0 then target
    else MergeDeep(MergeInto(target, sources[0]), sources[1..])
  }

  /** A key no source mentions keeps the target's value. */
  lemma {:induction false} MergeDeepKeepsUnmentioned(target: Value, sources: seq<Value>, k: string)
    requires target.Obj? && k in target.fields
    requires forall j | 0 <= j < |sources| :: !Mentions(sources[j], k)
    ensures var r := MergeDeep(target, sources); k in r.fields && r.fields[k] == target.fields[k]
    decreases |sources|
  {
    if |sources| > 0 {
      var t1 := MergeInto(target, sources[0]);
      MergeDeepKeepsUnmentioned(t1, sources[1..], k);
    }
  }

  /** A non-object value for key `k` in source `j` is the result's value
      for `k` when no later source mentions `k`: the right-most source wins. */
  lemma {:induction false} MergeDeepRightmostScalarWins(target: Value, sources: seq<Value>, j: nat, k: string)
    requires target.Obj?
    requires j < |sources| && Mentions(sources[j], k)
    requires !IsObject(ForInEntries(sources[j])[k])
    requires forall i | j < i < |sources| :: !Mentions(sources[i], k)
    ensures var r := MergeDeep(target, sources);
            k in r.fields && r.fields[k] == ForInEntries(sources[j])[k]
    decreases |sources|
  {
    var t1 := MergeInto(target, sources[0]);
    if j == 0 {
      MergeDeepKeepsUnmentioned(t1, sources[1..], k);
    } else {
      MergeDeepRightmostScalarWins(t1, sources[1..], j - 1, k);
    }
  }

  /** An object-valued source key merges into the target's object for that
      key: nested keys the source does not mention survive, nested scalar
      keys it does mention are replaced. */
  lemma NestedMergeKeepsUnmentioned(target: Value, source: Value, k: string, n: string)
    requires target.Obj? && k in target.fields && target.fields[k].Obj?
    requires Mentions(source, k) && IsObject(ForInEntries(source)[k])
    requires n in target.fields[k].fields && !Mentions(ForInEntries(source)[k], n)
    ensures var r := MergeInto(target, source);
            k in r.fields && r.fields[k].Obj? &&
            n in r.fields[k].fields && r.fields[k].fields[n] == target.fields[k].fields[n]
  {
  }

  /** A falsy or missing target value is replaced by a fresh object before
      the nested merge, so the result holds exactly the source's keys. */
  lemma NestedMergeIntoFalsy(target: Value, source: Value, k: string)
    requires target.Obj? && (k !in target.fields || !Truthy(target.fields[k]))
    requires Mentions(source, k) && IsObject(ForInEntries(source)[k])
    ensures var r := MergeInto(target, source);
            k in r.fields && r.fields[k].Obj? &&
            r.fields[k].fields.Keys == ForInEntries(ForInEntries(source)[k]).Keys
  {
  }
}

=== FILE: wrappers.dfy ===
/** Optional values. `None` also stands for a JavaScript call that throws
    instead of returning (a failed JSON clone, a TypeError in the strip driver). */
module Wrappers {

  datatype Option<+T> = None | Some(value: T) {

    /** The contained value, or `default` when there is none. */
    function GetOr(default: T): T {
      match this
      case Some(v) => v
      case None => default
    }
  }
}
